=== FILE: README.md ===
# Session store of signup_project, modelled in Dafny

The server keeps login sessions in two tiers: Redis as a fast cache and a MySQL `sessions`
table as the durable tier. This project models that session-store layer as pure step
functions over immutable state: two maps (the Redis key space and the MySQL table), one
breaker timestamp, and an explicit millisecond clock. Each Redis command's fate
(`Completed`, `TimedOut(applied)`, `Rejected(error)`) and each MySQL query's reachability
(`Reachable`, `Unreachable(error)`) are inputs, so the model needs no I/O.

Modules, one per source file or concept:

- `Outcomes` (outcomes.dfy): `Option`, `Result`, and the thrown `Error` with its `code || message` reason.
- `Session` (session.dfy): the payload as a JSON value, with JavaScript truthiness, and the `session_store` tier tag.
- `Text` (text.dfy): the JavaScript string semantics callers rely on: `trim`, `\s`, `.`, `toLowerCase`.
- `RedisStore` (redis_store.dfy): store/redisSessionStore.js. It covers `sess:` keys, the readiness guard, the tolerant `del` and the 800 ms command bound.
- `MysqlStore` (mysql_store.dfy): store/mysqlSessionStore.js. It covers the upsert, the `expires_at > NOW()` filter and the idempotent delete.
- `Breaker` (breaker.dfy): the one-timestamp circuit breaker both facades keep.
- `PrimaryStore` (primary_store.dfy): store/index.js, the facade server.js wires in. It tries Redis first and falls back to MySQL, with a 5000 ms breaker.
- `FallbackStore` (fallback_store.dfy): store/fallbackSessionStore.js, the alternative facade. It writes MySQL first and mirrors to Redis on a best-effort basis, with a 3000 ms breaker.
- `Facades` (facades.dfy): the two facades side by side on the same tiers.
- `StoreType` (store_type.dfy): the type dispatch of store/sessionStore.js.
- `Server` (server.dfy): `readBearerToken`, the reconnect backoff, the error-log throttle, the health flags and the `auth` guards of server.js.

Behaviour of the code that the model makes explicit:

- The wired facade (store/index.js) writes Redis first and writes MySQL only when the Redis attempt throws. A successful `set` therefore normally writes one tier. Writing MySQL first and mirroring to Redis is what store/fallbackSessionStore.js does, and that facade is modelled separately.
- In store/index.js `get`, the MySQL read after a Redis miss sits inside the same `try` as the Redis attempt. If that read fails, the `catch` reads MySQL a second time and reports the MySQL error as the `fallback_reason`. So a single call can query MySQL twice (`PrimaryStore.MissPathMysqlErrorIsRetried`).
- MySQL errors are not turned into "no session". store/index.js `get` rejects when its last MySQL read fails: the read in the `catch` after a Redis failure, or the second read after a Redis miss. Its `del` rejects when the MySQL delete fails. store/fallbackSessionStore.js `get` rejects when its MySQL read fails (`Facades.MysqlOutageGet`).
- A Redis write that times out may already have been carried out by the server. store/index.js then also writes MySQL, and both tiers hold the session (`PrimaryStore.LateTimeoutWritesBothTiers`).
- Both facades swallow a failed Redis delete. `del` still succeeds and clears MySQL, and once the breaker window has passed the Redis copy again answers `get` (`PrimaryStore.FailedRedisDeleteLeavesSessionLive`, `FallbackStore.FailedRedisDeleteLeavesSessionLive`).

## Model

| member | source | states |
|---|---|---|
| RedisStore.KeyInjective | store/redisSessionStore.js:29-42 | every command uses `"sess:" + token`, and two tokens share a key only if they are equal |
| RedisStore.Set | store/redisSessionStore.js:15-31 | a client that is missing or not ready raises `REDIS_NOT_READY` with no change. A completed or late-applied `SETEX` makes the token read as its payload at every instant before `now + ttl` and as absent from then on. A command that was not applied leaves Redis unchanged. A timeout rejects with `timeout:setEx:800ms`, a rejected command with its own error, and success returns true. No other token changes |
| RedisStore.Get | store/redisSessionStore.js:33-37 | raises `REDIS_NOT_READY` before any command. A completed `GET` yields the live payload or `null`. A timeout rejects with `timeout:get:800ms`, and a rejected command rejects with its error |
| RedisStore.Del | store/redisSessionStore.js:39-44 | a client that is not ready returns true and changes nothing. Otherwise it returns true when the command completes, rejects with `timeout:del:800ms` on a timeout, and rejects with the command's own error when it is rejected. An applied delete removes the key, a delete that was not applied leaves Redis unchanged, and no other token changes |
| RedisStore.SetThenGet | store/redisSessionStore.js:26-37 | after a completed `set` with positive TTL, `get` returns the payload at every instant before expiry |
| RedisStore.SetThenExpire | store/redisSessionStore.js:29-36 | once the TTL has run out, `get` returns `null` |
| RedisStore.DelThenGet | store/redisSessionStore.js:33-43 | after a completed `del`, `get` returns `null` |
| MysqlStore.Set | store/mysqlSessionStore.js:3-12 | an upsert: the token's row becomes exactly (payload, `now + ttl`), every other row is unchanged, and it returns true. An unreachable server rejects with no effect |
| MysqlStore.Get | store/mysqlSessionStore.js:14-24 | returns the payload if and only if a row exists whose `expires_at` is strictly after now, and `null` otherwise |
| MysqlStore.Del | store/mysqlSessionStore.js:26-29 | removes only that token's row and returns true, also when no row existed |
| MysqlStore.SetThenGet | store/mysqlSessionStore.js:5-18 | `set` with ttl > 0 followed by `get` at the same instant returns the payload |
| MysqlStore.SetThenExpire | store/mysqlSessionStore.js:7-18 | the row is returned strictly before `now + ttl` and never from that instant on |
| MysqlStore.SetOverwrites | store/mysqlSessionStore.js:6-8 | a second `set` of a token leaves the same table as that `set` alone, so nothing is merged |
| MysqlStore.DelIdempotent | store/mysqlSessionStore.js:26-29 | deleting twice equals deleting once, and it reports true |
| MysqlStore.DelThenGet | store/mysqlSessionStore.js:14-29 | after `del`, `get` returns `null` at every instant |
| Breaker.Allowed | store/index.js:14-16 | Redis may be tried once the clock has reached the window end (no contract: the definition itself) |
| Breaker.MarkDown | store/index.js:11-19 | after marking down at `now`, Redis is disallowed exactly until `now + cooldown` and allowed from then on |
| Breaker.ClosedAllows | store/index.js:11-16 | the initial breaker (`redisDownUntil = 0`) allows Redis at every instant |
| PrimaryStore.TryRedis | store/index.js:21-37 | readiness is checked before the breaker. A client that is not ready raises `REDIS_NOT_READY`, and an open breaker raises "redis temporarily disabled". Neither runs the operation or moves the window. A failing operation sets the window to `now + 5000` and rethrows, a succeeding one leaves the breaker unchanged, and MySQL is never touched |
| PrimaryStore.Set | store/index.js:40-48 | a completed Redis write answers `redis` with no reason and no MySQL query. Any Redis error writes MySQL and answers `mysql` with the error's code or message: `REDIS_NOT_READY`, "redis temporarily disabled", `timeout:setEx:800ms` or the rejected command's reason. A failed Redis write marks the breaker down. A skipped or completed one leaves the breaker unchanged. An applied write makes the token read as the payload at every instant before `now + ttl` and as absent from then on. It rejects, with MySQL's error, only when both tiers fail. Redis is invoked exactly when it is ready and allowed, its data changes only if a command was applied, and no other token changes |
| PrimaryStore.Get | store/index.js:50-62 | a completed Redis read of a truthy live value answers it tagged `redis`, with no reason and no MySQL query. A Redis miss reads MySQL once with no reason. If that read fails, it reads MySQL a second time, with the MySQL error as the reason. A failed or skipped Redis attempt reads MySQL once, with the Redis error's code or message as the reason, and rejects with MySQL's error if that read fails. MySQL answers are tagged `mysql` if truthy and `none` otherwise. A failed Redis read, and only that, marks the breaker down. Neither tier is written |
| PrimaryStore.Del | store/index.js:64-69 | Redis errors are swallowed and the MySQL delete always runs. It resolves true exactly when MySQL answers, and then only that token's row is gone. Otherwise it rejects with MySQL's error and the table is unchanged. A failed Redis delete marks the breaker down, a completed one removes the key, one that was not applied leaves Redis unchanged, and no other Redis token changes |
| PrimaryStore.DelThenGet | store/index.js:50-69 | after a `del` that both tiers carry out, a later `get` finds nothing whatever Redis answers. When the Redis read completes, the answer is `null` tagged `none` with no reason |
| PrimaryStore.HealthyRoundTrip | store/index.js:40-53 | with Redis ready and allowed, `set` answers `redis` and a following `get` returns the payload tagged `redis` |
| PrimaryStore.RedisOutageRoundTrip | store/index.js:21-61 | with Redis not ready, `set` answers `mysql`/`REDIS_NOT_READY` and `get` returns the payload tagged `mysql` with the same reason |
| PrimaryStore.RoundTrip | store/index.js:40-61 | whichever tier `set` chose, `get` at the same instant returns the payload, provided the Redis read does not fail and MySQL answers |
| PrimaryStore.RedisCopyLostOnReadFailure | store/index.js:40-61 | a session written to Redis alone reads as `null`/`none` when the next Redis read fails |
| PrimaryStore.LateTimeoutWritesBothTiers | store/index.js:40-47 | a Redis write that times out after being applied also writes MySQL with reason `timeout:setEx:800ms`, so both tiers hold the payload |
| PrimaryStore.MissPathMysqlErrorIsRetried | store/index.js:50-61 | after a Redis miss, a failed MySQL read is caught: MySQL is queried twice and the MySQL error becomes the `fallback_reason` |
| PrimaryStore.FailedRedisDeleteLeavesSessionLive | store/index.js:64-69 | a failed Redis delete still yields true and clears MySQL, yet after the cooldown `get` serves the Redis copy |
| PrimaryStore.GetsSuppressedWithinCooldown | store/index.js:29 | every `get` while the breaker is open leaves Redis uninvoked and the state unchanged |
| PrimaryStore.BreakerSuppressesThenRecovers | store/index.js:12-36 | after a failed Redis read, gets within the next 5000 ms skip Redis, and a get at the end of the window invokes it again |
| FallbackStore.Init | store/fallbackSessionStore.js:4-10 | the breaker window defaults to 3000 ms and starts closed |
| FallbackStore.UsableNow | store/fallbackSessionStore.js:10 | Redis is usable when an adapter exists and the clock has reached the window end (no contract: the definition itself) |
| FallbackStore.MarkRedisDown | store/fallbackSessionStore.js:11 | afterwards Redis is usable exactly from `now + breakerMs` on, if an adapter exists, and nothing but the breaker changes |
| FallbackStore.Set | store/fallbackSessionStore.js:14-27 | MySQL is written first. If that fails, the error propagates and Redis is never invoked. After a MySQL success the row holds the payload whatever Redis does. Redis is invoked exactly when usable, and its failure is swallowed and marks the breaker down. An applied mirror, including one that timed out after the server carried it out, makes the token read as the payload at every instant before `now + ttl` and as absent from then on. Otherwise Redis is unchanged. No other Redis token changes |
| FallbackStore.Get | store/fallbackSessionStore.js:29-42 | a truthy live value from a completed Redis read is returned directly. In every other case the answer is MySQL's value, or MySQL's error when MySQL is unreachable. Only a Redis error, not a miss, marks the breaker down. Neither tier is written, and the adapter's presence and the window length stay the same |
| FallbackStore.Del | store/fallbackSessionStore.js:44-55 | always resolves. A reachable MySQL loses exactly that row, and an unreachable one is unchanged. Redis is invoked exactly when usable. A failed Redis delete on a ready client marks the breaker down. Redis changes only through an applied delete of the token's key, and no other Redis token changes. The adapter's presence, the client's readiness and the window length stay the same |
| FallbackStore.DelThenGet | store/fallbackSessionStore.js:29-55 | after a `del` that both tiers carry out, a later `get` answers `null` whatever Redis answers |
| FallbackStore.FailedRedisDeleteLeavesSessionLive | store/fallbackSessionStore.js:29-55 | a failed Redis delete still resolves and clears MySQL, yet once the window has passed `get` serves the Redis copy |
| FallbackStore.RoundTrip | store/fallbackSessionStore.js:14-42 | with a positive window, `set` then `get` at the same instant returns the payload whatever Redis does on either call |
| FallbackStore.ZeroWindowServesStaleMirror | store/fallbackSessionStore.js:8-34 | with `breakerMs = 0`, a failed mirror does not stop the next `get` from serving an older Redis copy |
| FallbackStore.StaleMirrorAfterWindow | store/fallbackSessionStore.js:14-42 | after a failed mirror and once the window has passed, `get` serves the older Redis copy while MySQL holds the newer payload |
| FallbackStore.NoRedisWhileOpen | store/fallbackSessionStore.js:10-55 | over any sequence of `set`/`get`/`del` calls while the breaker is open, none invokes Redis, and the window and Redis stay unchanged |
| Facades.HealthySetFootprints | store/index.js:40-47 | with Redis healthy, the Redis-first `set` leaves MySQL unchanged while the durable-first `set` writes it |
| Facades.RedisReadFailureAfterHealthySet | store/index.js:50-61 | after a healthy `set`, a failed Redis read loses the session in the Redis-first store and finds it in the durable-first store |
| Facades.MysqlOutageSet | store/fallbackSessionStore.js:14-16 | with MySQL down, the Redis-first `set` succeeds through Redis, while the durable-first `set` rejects without invoking Redis |
| Facades.MysqlOutageGet | store/index.js:56-60 | with Redis not ready and MySQL unreachable, `get` rejects with MySQL's error in both facades |
| Text.Trim | store/sessionStore.js:6 | the result is the input with whitespace-only ends removed and a core whose first and last characters are not whitespace |
| Text.TrimUnique | store/sessionStore.js:6 | any split into whitespace, a non-space core and whitespace has `trim` returning that core |
| StoreType.Normalize | store/sessionStore.js:6 | the normalized type has no whitespace at either end and is no longer than the configured type |
| StoreType.Select | store/sessionStore.js:6-11 | a missing or empty type selects the Redis store, and the durable-first store always gets the 3000 ms window |
| StoreType.NormalizeDefault | store/sessionStore.js:6 | a missing or empty type normalizes to "redis" |
| StoreType.SpellsNormalized | store/sessionStore.js:6 | a non-empty type spells its normalized form up to surrounding whitespace and case |
| StoreType.NormalizeSpelled | store/sessionStore.js:6 | a type that spells a word with non-space ends normalizes to that word |
| StoreType.NormalizeSpells | store/sessionStore.js:6 | normalizing gives "mysql" or "fallback" if and only if the type spells it |
| StoreType.SelectMysqlIff | store/sessionStore.js:6-8 | the MySQL store is selected if and only if the type is "mysql" up to case and surrounding whitespace |
| StoreType.SelectFallbackIff | store/sessionStore.js:6-9 | the fallback store, with `breakerMs = 3000`, is selected if and only if the type is "fallback" up to case and whitespace |
| StoreType.SelectRedisOtherwise | store/sessionStore.js:5-11 | the Redis store is selected if and only if the type is missing or spells neither word |
| StoreType.SelectRedisUnlessSpelled | store/sessionStore.js:6-11 | a present type selects the Redis store if and only if it spells neither "mysql" nor "fallback" |
| Outcomes.Decimal | store/redisSessionStore.js:6 | the millisecond count in a timeout message is printed as decimal digits with no leading zero, and those digits denote exactly the number |
| Outcomes.Reason | store/index.js:46 | the reported reason is the error's code when it is set and its message otherwise, and it is empty only when both are |
| Session.Truthy | store/index.js:53 | JavaScript truthiness of a session value: `null`, `false`, 0 and "" are falsy (no contract: the definition itself) |
| Server.Split | server.js:57 | gives the split `\s+` reaches under backtracking: a valid split with no valid split beyond it, or none when no split is valid |
| Server.ReadBearerToken | server.js:54-59 | `null` without a header or with an empty one. Otherwise it returns the captured group when the header is `Bearer`, in any case, then whitespace, then at least one character up to the end with no line terminator. The token starts where the backtracking `\s+` stops, the furthest valid split. Every token returned is non-empty |
| Server.BearerTrailingSpace | server.js:57-58 | backtracking makes `"Bearer  "` yield `" "`: `\s+` gives back one character so that `(.+)` can match |
| Server.BearerSkipsSpaces | server.js:57-58 | `"bearer \t abc"` yields `"abc"`: the scheme is matched in any case, and extra whitespace is not captured |
| Server.BearerRejectsLineEnd | server.js:57-58 | `"Bearer \n"` yields `null`, because `.` does not match a line terminator |
| Server.BearerRoundTrip | server.js:57-58 | a token without whitespace is recovered from `"Bearer " + token` |
| Server.ReconnectDelay | server.js:107 | the delay is `retries * 500` or 5000, whichever is smaller. It is a multiple of 500 and reaches 5000 if and only if `retries >= 10` |
| Server.ReconnectDelayMonotone | server.js:107 | the delay is nondecreasing in `retries` |
| Server.OnRedisError | server.js:111-117 | an error is logged only when more than 10 000 ms have passed since `lastErrAt`, which moves to now exactly when it is logged |
| Server.LoggedErrorsSpaced | server.js:111-117 | over any error sequence, logged instants are more than 10 000 ms apart and after the initial `lastErrAt + 10000`, and `lastErrAt` ends at the last one logged |
| Server.HealthReport | server.js:204-210 | `ok` equals MySQL reachability, and `degraded` holds if and only if MySQL is up and Redis is down |
| Server.HealthReportsReachable | server.js:205-210 | only healthy, degraded and down reports occur, never "degraded but not ok" |
| Server.Auth | server.js:125-141 | 401 without a Bearer token, and then the store is not consulted. A rejected `get` gives 500 and a falsy value gives 401. An accepted request carries the parsed token and a truthy session |
| Server.LoginThenAuthenticate | server.js:125-179 | the `auth` guard (lines 125-136) and login's `store.set` (line 179) fit together: a session stored by login's `set` authenticates `"Bearer " + token` at the same instant, provided the Redis read does not fail and MySQL answers |

## Left out

- I/O and time: the network, `Promise.race` and the timer behind `withTimeout` are replaced by per-command reply inputs. `Date.now()` and MySQL's `NOW()` are replaced by one millisecond clock parameter.
- Concurrency: interleaved async requests and races on the breaker timestamp are not modelled. Each facade call is one atomic step, with one clock reading per call.
- Redis and MySQL clocks and precision: Redis-native expiry and MySQL's second-resolution `DATETIME` share the one abstract clock. Redis's rejection of a non-positive `SETEX` TTL is not modelled.
- JSON: `JSON.stringify`/`JSON.parse` are taken as inverse. Numbers are reals (NaN and infinities are left out), and objects and arrays are opaque.
- Construction and wiring: client and pool construction, table creation, Express routing, bcrypt, the signup/login SQL and the compatibility routes of server.js are not modelled. The named-export wiring of store/fallbackSessionStore.js and store/sessionStore.js, which does not match the adapters' exports, is not modelled either. The facades are modelled against the adapters' protocol.
- `cleanupExpired` of store/fallbackSessionStore.js is not modelled: the MySQL adapter it calls has no such operation.
- `makeToken` is not modelled: it is OS randomness. Tokens are arbitrary strings.
- Logging (`console.error`) is not modelled, apart from the throttle's decision to log.
- StoreType.Normalize: lower-cases only ASCII letters and the Kelvin sign. JavaScript's other case mappings are left out. None of them produces a letter of "mysql" or "fallback", so `Select` agrees with the source even where the normalized string does not.
- MysqlStore: tokens are compared exactly, as map keys. MySQL compares `sessions.token` under the column's collation, and the default collations ignore letter case. So tokens that differ only in case share one row in MySQL, but not in Redis, where `sess:` keys are compared exactly. Tokens from `makeToken` are lower-case hex, so only a client-altered token can reach this case.
- The `created_at` column of the `sessions` table: the store never reads or writes it, so rows hold only payload and expiry.
- public/app.js, db/mysql.js and db/pg.js are not part of this model.

=== FILE: breaker.dfy ===
/** The one-timestamp circuit breaker both facades keep: Redis is tried only once the clock
    has reached `downUntil`, and every Redis failure pushes `downUntil` to now plus a cooldown. */
module Breaker {

  datatype Breaker = Breaker(downUntil: int)

  /** A fresh facade starts with `redisDownUntil = 0`. */
  const Closed: Breaker := Breaker(0)

  predicate Allowed(b: Breaker, now: nat)
  {
    now >= b.downUntil
  }

  /** Sets the window end to `now + cooldownMs`, replacing (not extending) the previous one. */
  function MarkDown(b: Breaker, now: nat, cooldownMs: nat): (b': Breaker)
    ensures forall t: nat :: Allowed(b', t) <==> t >= now + cooldownMs
    ensures cooldownMs > 0 ==> !Allowed(b', now)
  {
    Breaker(now + cooldownMs)
  }

  /** The initial breaker lets Redis through at every instant. */
  lemma ClosedAllows(now: nat)
    ensures Allowed(Closed, now)
  {
  }
}

=== FILE: facades.dfy ===
/** The two facades over the same tiers, side by side: the Redis-first store the server
    wires in (store/index.js) and the durable-first one (store/fallbackSessionStore.js). */
module Facades {
  import opened Outcomes
  import opened Session
  import opened Breaker
  import RedisStore
  import MysqlStore
  import PrimaryStore
  import FallbackStore

  /** With Redis healthy, the Redis-first `set` leaves MySQL as it was while the
      durable-first `set` writes the session to MySQL. */
  lemma HealthySetFootprints(redis: RedisStore.Client, mysql: MysqlStore.Db, token: string, p: Payload,
                             ttlSeconds: int, now: nat)
    requires redis.ready && ttlSeconds > 0
    ensures PrimaryStore.Set(PrimaryStore.Init(redis, mysql), token, p, ttlSeconds, now,
                             RedisStore.Completed, MysqlStore.Reachable).store.mysql == mysql
    ensures MysqlStore.Lookup(FallbackStore.Set(FallbackStore.Init(true, redis, mysql), token, p, ttlSeconds, now,
                                                MysqlStore.Reachable, RedisStore.Completed).store.mysql, token, now) == Some(p)
  {
    ClosedAllows(now);
  }

  /** After a healthy `set`, a `get` whose Redis read fails still finds the session in the
      durable-first store but not in the Redis-first one (when MySQL held nothing before). */
  lemma RedisReadFailureAfterHealthySet(redis: RedisStore.Client, mysql: MysqlStore.Db, token: string, p: Payload,
                                        ttlSeconds: int, now: nat, e: Error, retry: MysqlStore.Conn)
    requires redis.ready && ttlSeconds > 0 && Truthy(p)
    requires MysqlStore.Lookup(mysql, token, now) == None
    ensures
      var st := PrimaryStore.Set(PrimaryStore.Init(redis, mysql), token, p, ttlSeconds, now,
                                 RedisStore.Completed, MysqlStore.Reachable).store;
      PrimaryStore.Get(st, token, now, RedisStore.Rejected(e), MysqlStore.Reachable, retry).out.value.value == Null
    ensures
      var st := FallbackStore.Set(FallbackStore.Init(true, redis, mysql), token, p, ttlSeconds, now,
                                  MysqlStore.Reachable, RedisStore.Completed).store;
      FallbackStore.Get(st, token, now, RedisStore.Rejected(e), MysqlStore.Reachable).out == Ok(p)
  {
    ClosedAllows(now);
    PrimaryStore.RedisCopyLostOnReadFailure(PrimaryStore.Init(redis, mysql), token, p, ttlSeconds, now,
                                            MysqlStore.Reachable, e, retry);
  }

  /** With MySQL unreachable, the Redis-first `set` still succeeds through Redis while the
      durable-first `set` rejects without touching Redis. */
  lemma MysqlOutageSet(redis: RedisStore.Client, mysql: MysqlStore.Db, token: string, p: Payload,
                       ttlSeconds: int, now: nat, e: Error)
    requires redis.ready
    ensures PrimaryStore.Set(PrimaryStore.Init(redis, mysql), token, p, ttlSeconds, now,
                             RedisStore.Completed, MysqlStore.Unreachable(e)).out == Ok(PrimaryStore.SetReply(RedisTier, None))
    ensures FallbackStore.Set(FallbackStore.Init(true, redis, mysql), token, p, ttlSeconds, now,
                              MysqlStore.Unreachable(e), RedisStore.Completed).out == Err(e)
    ensures !FallbackStore.Set(FallbackStore.Init(true, redis, mysql), token, p, ttlSeconds, now,
                               MysqlStore.Unreachable(e), RedisStore.Completed).redisInvoked
  {
    ClosedAllows(now);
  }

  /** With MySQL unreachable and no Redis answer to fall back on, `get` rejects with MySQL's
      error in both facades rather than reading as absent. */
  lemma MysqlOutageGet(redis: RedisStore.Client, mysql: MysqlStore.Db, token: string, now: nat, e: Error,
                       reply: RedisStore.Reply, retry: MysqlStore.Conn)
    requires !redis.ready
    ensures PrimaryStore.Get(PrimaryStore.Init(redis, mysql), token, now, reply,
                             MysqlStore.Unreachable(e), retry).out == Err(e)
    ensures FallbackStore.Get(FallbackStore.Init(true, redis, mysql), token, now, reply,
                              MysqlStore.Unreachable(e)).out == Err(e)
  {
    ClosedAllows(now);
  }
}

=== FILE: fallback_store.dfy ===
/** The durable-first facade (store/fallbackSessionStore.js): `set` always writes MySQL and
    mirrors to Redis when it may; `get` prefers a Redis hit; `del` clears both and never
    throws. Its breaker window is `breakerMs` (3000 unless configured). */
module FallbackStore {
  import opened Outcomes
  import opened Session
  import opened Breaker
  import RedisStore
  import MysqlStore

  /** Default of the `breakerMs` option. */
  const DefaultBreakerMs: nat := 3000

  /** `hasRedis` is false when no Redis client was given, so no Redis adapter exists. */
  datatype Store = Store(hasRedis: bool, redis: RedisStore.Client, mysql: MysqlStore.Db,
                         breaker: Breaker, breakerMs: nat)

  /** One facade call: the new state, what it resolves or rejects with, and whether the
      Redis adapter was invoked. */
  datatype Step<+T> = Step(store: Store, out: Result<T>, redisInvoked: bool)

  function Init(hasRedis: bool, redis: RedisStore.Client, mysql: MysqlStore.Db): (st: Store)
    ensures st.breakerMs == 3000
    ensures forall now: nat :: Allowed(st.breaker, now)
  {
    Store(hasRedis, redis, mysql, Closed, DefaultBreakerMs)
  }

  /** A Redis adapter exists and the breaker lets it through. */
  predicate UsableNow(st: Store, now: nat)
  {
    st.hasRedis && Allowed(st.breaker, now)
  }

  /** Closes the breaker for `breakerMs` from now; nothing else changes. */
  function MarkRedisDown(st: Store, now: nat): (st': Store)
    ensures forall t: nat :: UsableNow(st', t) <==> st.hasRedis && t >= now + st.breakerMs
    ensures st' == st.(breaker := st'.breaker)
  {
    st.(breaker := MarkDown(st.breaker, now, st.breakerMs))
  }

  /** `set`: MySQL first (its error propagates and Redis is not tried); then a best-effort
      Redis mirror whose failure only marks Redis down. */
  function Set(st: Store, token: string, p: Payload, ttlSeconds: int, now: nat,
               conn: MysqlStore.Conn, reply: RedisStore.Reply): (s: Step<()>)
    ensures conn.Unreachable? ==> s == Step(st, Err(conn.error), false)
    ensures conn.Reachable? ==> s.out.Ok?
    ensures conn.Reachable? ==> s.store.mysql.rows == st.mysql.rows[token := MysqlStore.Row(p, ExpiryAt(now, ttlSeconds))]
    ensures s.redisInvoked <==> conn.Reachable? && UsableNow(st, now)
    ensures !s.redisInvoked ==> s.store.redis == st.redis && s.store.breaker == st.breaker
    ensures s.redisInvoked && st.redis.ready && reply.Completed? ==>
      s.store.breaker == st.breaker && (ttlSeconds > 0 ==> RedisStore.Lookup(s.store.redis, token, now) == Some(p))
    ensures s.redisInvoked && !(st.redis.ready && reply.Completed?) ==>
      s.store.breaker == MarkDown(st.breaker, now, st.breakerMs)
    ensures s.store.hasRedis == st.hasRedis && s.store.breakerMs == st.breakerMs && s.store.redis.ready == st.redis.ready
    ensures s.redisInvoked && st.redis.ready && RedisStore.Applied(reply) ==> forall at: nat ::
      RedisStore.Lookup(s.store.redis, token, at) == if at < ExpiryAt(now, ttlSeconds) then Some(p) else None
    ensures !(s.redisInvoked && st.redis.ready && RedisStore.Applied(reply)) ==> s.store.redis == st.redis
    ensures forall t, at: nat :: t != token ==>
      RedisStore.Lookup(s.store.redis, t, at) == RedisStore.Lookup(st.redis, t, at)
  {
    var m := MysqlStore.Set(st.mysql, token, p, ttlSeconds, now, conn);
    match m.out
    case Err(e) => Step(st, Err(e), false)
    case Ok(_) =>
      var st1 := st.(mysql := m.db);
      if !UsableNow(st1, now) then Step(st1, Ok(()), false)
      else
        var r := RedisStore.Set(st1.redis, token, p, ttlSeconds, now, reply);
        var st2 := st1.(redis := r.client);
        if r.out.Ok? then Step(st2, Ok(()), true)
        else Step(MarkRedisDown(st2, now), Ok(()), true)
  }

  /** `get`: a truthy Redis answer is returned as is; a miss or an error falls through to
      MySQL, and only the error marks Redis down. A MySQL error propagates. */
  function Get(st: Store, token: string, now: nat, reply: RedisStore.Reply, conn: MysqlStore.Conn): (s: Step<Payload>)
    ensures s.store.mysql == st.mysql && s.store.redis == st.redis
    ensures s.store.hasRedis == st.hasRedis && s.store.breakerMs == st.breakerMs
    ensures s.redisInvoked <==> UsableNow(st, now)
    ensures s.store.breaker != st.breaker ==>
      s.redisInvoked && RedisStore.Get(st.redis, token, now, reply).Err?
      && s.store.breaker == MarkDown(st.breaker, now, st.breakerMs)
    ensures s.redisInvoked && RedisStore.Get(st.redis, token, now, reply).Err? ==>
      s.store.breaker == MarkDown(st.breaker, now, st.breakerMs)
    ensures s.out.Ok? ==>
      (s.redisInvoked && Truthy(s.out.value) && RedisStore.Lookup(st.redis, token, now) == Some(s.out.value))
      || s.out.value == ValueOf(MysqlStore.Lookup(st.mysql, token, now))
    ensures s.redisInvoked && st.redis.ready && reply.Completed? && Truthy(ValueOf(RedisStore.Lookup(st.redis, token, now))) ==>
      s.out == Ok(ValueOf(RedisStore.Lookup(st.redis, token, now)))
    ensures s.out.Err? ==> conn.Unreachable? && s.out.error == conn.error
    ensures !(s.redisInvoked && st.redis.ready && reply.Completed? && Truthy(ValueOf(RedisStore.Lookup(st.redis, token, now)))) ==>
      s.out == if conn.Reachable? then Ok(ValueOf(MysqlStore.Lookup(st.mysql, token, now))) else Err(conn.error)
  {
    if !UsableNow(st, now) then MysqlFallback(st, token, now, conn, false)
    else
      match RedisStore.Get(st.redis, token, now, reply)
      case Err(_) => MysqlFallback(MarkRedisDown(st, now), token, now, conn, true)
      case Ok(v) =>
        if Truthy(ValueOf(v)) then Step(st, Ok(ValueOf(v)), true)
        else MysqlFallback(st, token, now, conn, true)
  }

  /** The final MySQL read of `get`, whose error propagates. */
  function MysqlFallback(st: Store, token: string, now: nat, conn: MysqlStore.Conn, redisInvoked: bool): Step<Payload>
  {
    match MysqlStore.Get(st.mysql, token, now, conn)
    case Err(e) => Step(st, Err(e), redisInvoked)
    case Ok(mv) => Step(st, Ok(ValueOf(mv)), redisInvoked)
  }

  /** `del`: the MySQL delete's error is swallowed; the Redis delete runs when usable and its
      failure marks Redis down. It always resolves. */
  function Del(st: Store, token: string, now: nat, conn: MysqlStore.Conn, reply: RedisStore.Reply): (s: Step<()>)
    ensures s.out.Ok?
    ensures s.store.hasRedis == st.hasRedis && s.store.breakerMs == st.breakerMs && s.store.redis.ready == st.redis.ready
    ensures conn.Reachable? ==> s.store.mysql.rows == st.mysql.rows - {token}
    ensures conn.Unreachable? ==> s.store.mysql == st.mysql
    ensures s.redisInvoked <==> UsableNow(st, now)
    ensures !s.redisInvoked ==> s.store.redis == st.redis && s.store.breaker == st.breaker
    ensures s.redisInvoked && !st.redis.ready ==> s.store.redis == st.redis && s.store.breaker == st.breaker
    ensures s.redisInvoked && st.redis.ready && reply.Completed? ==> s.store.breaker == st.breaker
    ensures s.redisInvoked && st.redis.ready && !reply.Completed? ==> s.store.breaker == MarkDown(st.breaker, now, st.breakerMs)
    ensures s.redisInvoked && st.redis.ready && RedisStore.Applied(reply) ==> RedisStore.Key(token) !in s.store.redis.data
    ensures !(s.redisInvoked && st.redis.ready && RedisStore.Applied(reply)) ==> s.store.redis == st.redis
    ensures forall t, at: nat :: t != token ==>
      RedisStore.Lookup(s.store.redis, t, at) == RedisStore.Lookup(st.redis, t, at)
  {
    var m := MysqlStore.Del(st.mysql, token, conn);
    var st1 := st.(mysql := m.db);
    if !UsableNow(st1, now) then Step(st1, Ok(()), false)
    else
      var r := RedisStore.Del(st1.redis, token, reply);
      var st2 := st1.(redis := r.client);
      if r.out.Ok? then Step(st2, Ok(()), true)
      else Step(MarkRedisDown(st2, now), Ok(()), true)
  }

  /** A successful `set` followed by a `get` at the same instant returns the payload, whatever
      Redis does on either call, as long as MySQL answers and the breaker window is positive. */
  lemma RoundTrip(st: Store, token: string, p: Payload, ttlSeconds: int, now: nat,
                  setReply: RedisStore.Reply, getReply: RedisStore.Reply)
    requires ttlSeconds > 0 && st.breakerMs > 0
    ensures Set(st, token, p, ttlSeconds, now, MysqlStore.Reachable, setReply).out.Ok?
    ensures Get(Set(st, token, p, ttlSeconds, now, MysqlStore.Reachable, setReply).store, token, now,
                getReply, MysqlStore.Reachable).out == Ok(p)
  {
    var s := Set(st, token, p, ttlSeconds, now, MysqlStore.Reachable, setReply);
    assert MysqlStore.Lookup(s.store.mysql, token, now) == Some(p);
    if UsableNow(s.store, now) {
      assert st.redis.ready && setReply.Completed?;
      assert RedisStore.Lookup(s.store.redis, token, now) == Some(p);
    }
  }

  /** After a `del` that both tiers carry out, `get` finds nothing at any later instant,
      whatever Redis answers then. */
  lemma DelThenGet(st: Store, token: string, now: nat, later: nat, getReply: RedisStore.Reply)
    requires UsableNow(st, now) && now <= later
    ensures Get(Del(st, token, now, MysqlStore.Reachable, RedisStore.Completed).store, token, later,
                getReply, MysqlStore.Reachable).out == Ok(Null)
  {
  }

  /** A failed Redis delete is swallowed: `del` resolves and clears MySQL, yet once the
      window has passed `get` serves the Redis copy again. */
  lemma FailedRedisDeleteLeavesSessionLive(st: Store, token: string, p: Payload, now: nat, later: nat, e: Error)
    requires UsableNow(st, now) && st.redis.ready && Truthy(p)
    requires later >= now + st.breakerMs
    requires RedisStore.Lookup(st.redis, token, later) == Some(p)
    ensures Del(st, token, now, MysqlStore.Reachable, RedisStore.Rejected(e)).out.Ok?
    ensures MysqlStore.Lookup(Del(st, token, now, MysqlStore.Reachable, RedisStore.Rejected(e)).store.mysql, token, later) == None
    ensures Get(Del(st, token, now, MysqlStore.Reachable, RedisStore.Rejected(e)).store, token, later,
                RedisStore.Completed, MysqlStore.Reachable).out == Ok(p)
  {
  }

  /** With a zero-length window a failed mirror does not stop the next `get` from reading an
      older Redis copy at the same instant. */
  lemma ZeroWindowServesStaleMirror(st: Store, token: string, previous: Payload, p: Payload, ttlSeconds: int, now: nat, e: Error)
    requires st.hasRedis && st.redis.ready && Allowed(st.breaker, now) && st.breakerMs == 0
    requires RedisStore.Lookup(st.redis, token, now) == Some(previous) && Truthy(previous)
    ensures Get(Set(st, token, p, ttlSeconds, now, MysqlStore.Reachable, RedisStore.Rejected(e)).store, token, now,
                RedisStore.Completed, MysqlStore.Reachable).out == Ok(previous)
  {
  }

  /** A failed mirror leaves an older Redis copy in place: once the window has passed, `get`
      serves that copy although MySQL holds the newer payload. */
  lemma StaleMirrorAfterWindow(st: Store, token: string, previous: Payload, p: Payload, ttlSeconds: int,
                               now: nat, later: nat, e: Error)
    requires st.hasRedis && st.redis.ready && Allowed(st.breaker, now)
    requires later >= now + st.breakerMs && ttlSeconds > 0 && later < ExpiryAt(now, ttlSeconds)
    requires RedisStore.Lookup(st.redis, token, later) == Some(previous) && Truthy(previous)
    ensures MysqlStore.Lookup(Set(st, token, p, ttlSeconds, now, MysqlStore.Reachable, RedisStore.Rejected(e)).store.mysql, token, later)
         == Some(p)
    ensures Get(Set(st, token, p, ttlSeconds, now, MysqlStore.Reachable, RedisStore.Rejected(e)).store, token, later,
                RedisStore.Completed, MysqlStore.Reachable).out == Ok(previous)
  {
  }

  /** One facade call, with the replies its tiers give. */
  datatype Call =
    | SetCall(token: string, p: Payload, ttlSeconds: int, conn: MysqlStore.Conn, reply: RedisStore.Reply)
    | GetCall(token: string, reply: RedisStore.Reply, conn: MysqlStore.Conn)
    | DelCall(token: string, conn: MysqlStore.Conn, reply: RedisStore.Reply)

  /** Performs one call at `now`; returns the new state and whether Redis was invoked. */
  function Perform(st: Store, call: Call, now: nat): (Store, bool)
  {
    match call
    case SetCall(t, p, ttl, conn, reply) =>
      var s := Set(st, t, p, ttl, now, conn, reply); (s.store, s.redisInvoked)
    case GetCall(t, reply, conn) =>
      var s := Get(st, t, now, reply, conn); (s.store, s.redisInvoked)
    case DelCall(t, conn, reply) =>
      var s := Del(st, t, now, conn, reply); (s.store, s.redisInvoked)
  }

  /** Performs timed calls in order; returns the final state and, per call, whether Redis was invoked. */
  function Run(st: Store, calls: seq<(nat, Call)>): (r: (Store, seq<bool>))
    ensures |r.1| == |calls|
    decreases |calls|
  {
    if |calls| == 0 then (st, [])
    else
      var (st1, invoked) := Perform(st, calls[0].1, calls[0].0);
      var rest := Run(st1, calls[1..]);
      (rest.0, [invoked] + rest.1)
  }

  /** While the breaker is open no `set`, `get` or `del` issues a Redis operation, and none of
      them moves the window. */
  lemma {:induction false} NoRedisWhileOpen(st: Store, calls: seq<(nat, Call)>)
    requires forall i :: 0 <= i < |calls| ==> calls[i].0 < st.breaker.downUntil
    ensures Run(st, calls).0.breaker == st.breaker
    ensures Run(st, calls).0.redis == st.redis
    ensures forall i :: 0 <= i < |calls| ==> !Run(st, calls).1[i]
    decreases |calls|
  {
    if |calls| > 0 {
      var (st1, invoked) := Perform(st, calls[0].1, calls[0].0);
      assert !invoked && st1.breaker == st.breaker && st1.redis == st.redis;
      NoRedisWhileOpen(st1, calls[1..]);
    }
  }
}

=== FILE: mysql_store.dfy ===
/** The MySQL adapter (store/mysqlSessionStore.js) over the `sessions` table, keyed by token.
    Whether the pool reaches the server is an input to each query. */
module MysqlStore {
  import opened Outcomes
  import opened Session

  /** One row of `sessions`: the serialized payload and `expires_at` (milliseconds). */
  datatype Row = Row(payload: Payload, expiresAt: int)

  datatype Db = Db(rows: map<string, Row>)

  /** Whether a query reaches the server; an unreachable server rejects without effect. */
  datatype Conn = Reachable | Unreachable(error: Error)

  datatype Step<+T> = Step(db: Db, out: Result<T>)

  /** What the expiry-filtered `SELECT` finds for the token at time `now`. */
  function Lookup(db: Db, token: string, now: nat): Option<Payload>
  {
    if token in db.rows && db.rows[token].expiresAt > now then Some(db.rows[token].payload) else None
  }

  /** `set`: `INSERT ... ON DUPLICATE KEY UPDATE`, replacing payload and expiry together. */
  function Set(db: Db, token: string, p: Payload, ttlSeconds: int, now: nat, conn: Conn): (s: Step<bool>)
    ensures conn.Unreachable? ==> s == Step(db, Err(conn.error))
    ensures conn.Reachable? ==> s.out == Ok(true)
    ensures conn.Reachable? ==> s.db.rows.Keys == db.rows.Keys + {token}
    ensures conn.Reachable? ==> s.db.rows[token] == Row(p, ExpiryAt(now, ttlSeconds))
    ensures forall t :: t != token && t in db.rows ==> t in s.db.rows && s.db.rows[t] == db.rows[t]
  {
    match conn
    case Unreachable(e) => Step(db, Err(e))
    case Reachable => Step(Db(db.rows[token := Row(p, ExpiryAt(now, ttlSeconds))]), Ok(true))
  }

  /** `get`: the payload of a row whose `expires_at` is strictly later than now, else `null`. */
  function Get(db: Db, token: string, now: nat, conn: Conn): (r: Result<Option<Payload>>)
    ensures conn.Unreachable? ==> r == Err(conn.error)
    ensures conn.Reachable? ==> r.Ok?
    ensures r.Ok? ==> (r.value.Some? <==> token in db.rows && db.rows[token].expiresAt > now)
    ensures r.Ok? && r.value.Some? ==> r.value.value == db.rows[token].payload
  {
    match conn
    case Unreachable(e) => Err(e)
    case Reachable => Ok(Lookup(db, token, now))
  }

  /** `del`: deletes the token's row; a missing row is not an error. */
  function Del(db: Db, token: string, conn: Conn): (s: Step<bool>)
    ensures conn.Unreachable? ==> s == Step(db, Err(conn.error))
    ensures conn.Reachable? ==> s.out == Ok(true) && s.db.rows.Keys == db.rows.Keys - {token}
    ensures forall t :: t != token && t in db.rows ==> t in s.db.rows && s.db.rows[t] == db.rows[t]
  {
    match conn
    case Unreachable(e) => Step(db, Err(e))
    case Reachable => Step(Db(db.rows - {token}), Ok(true))
  }

  /** A `set` with a positive TTL is read back by a `get` at the same instant. */
  lemma SetThenGet(db: Db, token: string, p: Payload, ttlSeconds: int, now: nat)
    requires ttlSeconds > 0
    ensures Get(Set(db, token, p, ttlSeconds, now, Reachable).db, token, now, Reachable) == Ok(Some(p))
  {
  }

  /** The row stops being returned at exactly `now + ttl`: the filter is a strict `>`. */
  lemma SetThenExpire(db: Db, token: string, p: Payload, ttlSeconds: int, now: nat, later: nat)
    ensures later < ExpiryAt(now, ttlSeconds) ==>
      Get(Set(db, token, p, ttlSeconds, now, Reachable).db, token, later, Reachable) == Ok(Some(p))
    ensures later >= ExpiryAt(now, ttlSeconds) ==>
      Get(Set(db, token, p, ttlSeconds, now, Reachable).db, token, later, Reachable) == Ok(None)
  {
  }

  /** A second `set` of the same token replaces the first: nothing of the earlier payload or expiry survives. */
  lemma SetOverwrites(db: Db, token: string, p1: Payload, ttl1: int, t1: nat, p2: Payload, ttl2: int, t2: nat)
    ensures Set(Set(db, token, p1, ttl1, t1, Reachable).db, token, p2, ttl2, t2, Reachable)
         == Set(db, token, p2, ttl2, t2, Reachable)
  {
    assert Set(Set(db, token, p1, ttl1, t1, Reachable).db, token, p2, ttl2, t2, Reachable).db.rows
        == Set(db, token, p2, ttl2, t2, Reachable).db.rows;
  }

  /** Deleting twice is the same as deleting once, and both calls report success. */
  lemma DelIdempotent(db: Db, token: string)
    ensures Del(Del(db, token, Reachable).db, token, Reachable) == Del(db, token, Reachable)
    ensures Del(db, token, Reachable).out == Ok(true)
  {
    assert (db.rows - {token}) - {token} == db.rows - {token};
  }

  /** After a successful `del` the token reads as `null` at every instant. */
  lemma DelThenGet(db: Db, token: string, now: nat)
    ensures Get(Del(db, token, Reachable).db, token, now, Reachable) == Ok(None)
  {
  }
}

=== FILE: outcomes.dfy ===
/** Results and errors shared by every layer of the session store.
    A JavaScript `throw` becomes an `Err`, a resolved promise an `Ok`. */
module Outcomes {

  datatype Option<+T> = None | Some(value: T)

  /** A thrown `Error`, reduced to the two fields the store reads.
      A missing `code` property is the empty string. */
  datatype Error = Error(code: string, message: string)

  datatype Result<+T> = Ok(value: T) | Err(error: Error)

  /** The reason a facade reports for a caught error: the code when it is set, the message otherwise. */
  function Reason(e: Error): (r: string)
    ensures r == e.code || r == e.message
    ensures e.code != "" ==> r == e.code
    ensures r == "" <==> e.code == "" && e.message == ""
  {
    if e.code != "" then e.code else e.message
  }

  /** The number a string of decimal digits denotes, most significant digit first. */
  function DigitsValue(s: string): nat
    requires forall i :: 0 <= i < |s| ==> '0' <= s[i] <= '9'
  {
    if |s| == 0 then 0 else DigitsValue(s[..|s| - 1]) * 10 + (s[|s| - 1] - '0') as nat
  }

  /** Decimal digits of a natural number, as JavaScript template literals print it. */
  function Decimal(n: nat): (s: string)
    ensures |s| > 0
    ensures forall i :: 0 <= i < |s| ==> '0' <= s[i] <= '9'
    ensures DigitsValue(s) == n
    ensures n > 0 ==> s[0] != '0'
  {
    var d := ['0' + ((n % 10) as char)];
    if n < 10 then d
    else
      var hi := Decimal(n / 10);
      assert (hi + d)[..|hi + d| - 1] == hi;
      hi + d
  }
}

=== FILE: primary_store.dfy ===
/** The facade the server wires in (store/index.js): every write goes to Redis first and to
    MySQL only when that attempt throws; reads try Redis, then MySQL; a 5 s breaker suppresses
    Redis attempts after a Redis failure. Each operation is one atomic step over the two tiers
    and the breaker, with the clock and each tier's reply supplied as inputs. */
module PrimaryStore {
  import opened Outcomes
  import opened Session
  import opened Breaker
  import RedisStore
  import MysqlStore

  /** `COOLDOWN_MS`: Redis stays unused this long after a failure. */
  const CooldownMs: nat := 5000

  datatype Store = Store(redis: RedisStore.Client, mysql: MysqlStore.Db, breaker: Breaker)

  /** Result of `set`: `session_store` and the optional `fallback_reason`. */
  datatype SetReply = SetReply(tier: Tier, fallbackReason: Option<string>)

  /** Result of `get`: `value` (`null` when absent), `session_store`, optional `fallback_reason`. */
  datatype GetReply = GetReply(value: Payload, tier: Tier, fallbackReason: Option<string>)

  /** One facade call: the new state, what it resolves or rejects with, whether the Redis
      adapter was invoked, and how many MySQL queries were issued. */
  datatype Step<+T> = Step(store: Store, out: Result<T>, redisInvoked: bool, mysqlQueries: nat)

  /** Outcome of `tryRedis`. */
  datatype Attempt<+T> = Attempt(store: Store, out: Result<T>, invoked: bool)

  function Init(redis: RedisStore.Client, mysql: MysqlStore.Db): Store
  {
    Store(redis, mysql, Closed)
  }

  function DisabledError(): Error
  {
    Error("", "redis temporarily disabled")
  }

  /** `tryRedis(op)`: readiness first, then the breaker, then the operation; a failing
      operation marks Redis down and rethrows. */
  function TryRedis<T>(st: Store, now: nat, op: RedisStore.Client -> RedisStore.Step<T>): (a: Attempt<T>)
    ensures a.store.mysql == st.mysql
    ensures !st.redis.ready ==> a == Attempt(st, Err(RedisStore.NotReadyError()), false)
    ensures st.redis.ready && !Allowed(st.breaker, now) ==> a == Attempt(st, Err(DisabledError()), false)
    ensures a.invoked <==> st.redis.ready && Allowed(st.breaker, now)
    ensures a.invoked ==> a.out == op(st.redis).out && a.store.redis == op(st.redis).client
    ensures a.invoked && a.out.Err? ==> a.store.breaker == MarkDown(st.breaker, now, CooldownMs)
    ensures a.out.Ok? ==> a.store.breaker == st.breaker
  {
    if !st.redis.ready then Attempt(st, Err(RedisStore.NotReadyError()), false)
    else if !Allowed(st.breaker, now) then Attempt(st, Err(DisabledError()), false)
    else
      var s := op(st.redis);
      var st' := st.(redis := s.client);
      match s.out
      case Ok(v) => Attempt(st', Ok(v), true)
      case Err(e) => Attempt(st'.(breaker := MarkDown(st.breaker, now, CooldownMs)), Err(e), true)
  }

  /** The Redis attempt of `set`. */
  function RedisSetAttempt(st: Store, token: string, p: Payload, ttlSeconds: int, now: nat, reply: RedisStore.Reply): Attempt<bool>
  {
    TryRedis(st, now, c => RedisStore.Set(c, token, p, ttlSeconds, now, reply))
  }

  /** `set`: Redis first; on any Redis error, MySQL, tagged with the error's code or message. */
  function Set(st: Store, token: string, p: Payload, ttlSeconds: int, now: nat,
               reply: RedisStore.Reply, conn: MysqlStore.Conn): (s: Step<SetReply>)
    ensures s.out.Ok? ==> s.out.value.tier in {RedisTier, MysqlTier}
    ensures s.out.Ok? ==> (s.out.value.tier == RedisTier <==> s.out.value.fallbackReason.None?)
    ensures s.out.Ok? && s.out.value.tier == RedisTier ==>
      s.mysqlQueries == 0 && s.store.mysql == st.mysql
      && (ttlSeconds > 0 ==> RedisStore.Lookup(s.store.redis, token, now) == Some(p))
    ensures s.out.Ok? && s.out.value.tier == MysqlTier ==>
      s.mysqlQueries == 1 && s.store.mysql.rows == st.mysql.rows[token := MysqlStore.Row(p, ExpiryAt(now, ttlSeconds))]
    ensures s.out.Err? <==> RedisSetAttempt(st, token, p, ttlSeconds, now, reply).out.Err? && conn.Unreachable?
    ensures s.out.Err? ==> s.out.error == conn.error && s.store.mysql == st.mysql
    ensures !st.redis.ready && conn.Reachable? ==> s.out == Ok(SetReply(MysqlTier, Some("REDIS_NOT_READY")))
    ensures st.redis.ready && !Allowed(st.breaker, now) && conn.Reachable? ==>
      s.out == Ok(SetReply(MysqlTier, Some("redis temporarily disabled")))
    ensures s.redisInvoked <==> st.redis.ready && Allowed(st.breaker, now)
    ensures s.redisInvoked && reply.Completed? ==> s.out == Ok(SetReply(RedisTier, None))
    ensures s.redisInvoked && reply.Rejected? && conn.Reachable? ==>
      s.out == Ok(SetReply(MysqlTier, Some(Reason(reply.error))))
    ensures s.redisInvoked && reply.TimedOut? && conn.Reachable? ==>
      s.out == Ok(SetReply(MysqlTier, Some(Reason(RedisStore.TimeoutError("setEx")))))
    ensures s.redisInvoked && !reply.Completed? ==> s.store.breaker == MarkDown(st.breaker, now, CooldownMs)
    ensures !s.redisInvoked || reply.Completed? ==> s.store.breaker == st.breaker
    ensures s.store.redis != st.redis ==> s.redisInvoked && RedisStore.Applied(reply)
    ensures s.redisInvoked && RedisStore.Applied(reply) ==> forall at: nat ::
      RedisStore.Lookup(s.store.redis, token, at) == if at < ExpiryAt(now, ttlSeconds) then Some(p) else None
    ensures forall t, at: nat :: t != token ==>
      RedisStore.Lookup(s.store.redis, t, at) == RedisStore.Lookup(st.redis, t, at)
  {
    var a := RedisSetAttempt(st, token, p, ttlSeconds, now, reply);
    if a.out.Ok? then Step(a.store, Ok(SetReply(RedisTier, None)), a.invoked, 0)
    else
      var m := MysqlStore.Set(a.store.mysql, token, p, ttlSeconds, now, conn);
      var st' := a.store.(mysql := m.db);
      match m.out
      case Err(e) => Step(st', Err(e), a.invoked, 1)
      case Ok(_) => Step(st', Ok(SetReply(MysqlTier, Some(Reason(a.out.error)))), a.invoked, 1)
  }

  /** A MySQL answer of `get`, tagged `mysql` when the value is truthy and `none` otherwise. */
  function MysqlReply(mv: Payload, reason: Option<string>): GetReply
  {
    GetReply(mv, if Truthy(mv) then MysqlTier else NoTier, reason)
  }

  /** The error a `get` whose Redis attempt fails carries: not ready, breaker open, or the
      command's own failure, checked in that order. */
  function RedisGetFailure(st: Store, now: nat, reply: RedisStore.Reply): Error
  {
    if !st.redis.ready then RedisStore.NotReadyError()
    else if !Allowed(st.breaker, now) then DisabledError()
    else match RedisStore.Failure(reply, "get")
      case Some(e) => e
      case None => Error("", "")
  }

  /** The Redis attempt of `get`. */
  function RedisGetAttempt(st: Store, token: string, now: nat, reply: RedisStore.Reply): Attempt<Option<Payload>>
  {
    TryRedis(st, now, c => RedisStore.Step(c, RedisStore.Get(c, token, now, reply)))
  }

  /** The `catch` branch of `get`: one MySQL read, tagged with the caught error. */
  function GetCaught(st: Store, token: string, now: nat, e: Error, conn: MysqlStore.Conn,
                     redisInvoked: bool, queriesBefore: nat): Step<GetReply>
  {
    match MysqlStore.Get(st.mysql, token, now, conn)
    case Err(e') => Step(st, Err(e'), redisInvoked, queriesBefore + 1)
    case Ok(mv) => Step(st, Ok(MysqlReply(ValueOf(mv), Some(Reason(e)))), redisInvoked, queriesBefore + 1)
  }

  /** `get`. The MySQL read after a Redis miss sits inside the same `try` as the Redis attempt,
      so its failure is caught too and MySQL is read a second time (`retry`). */
  function Get(st: Store, token: string, now: nat, reply: RedisStore.Reply,
               first: MysqlStore.Conn, retry: MysqlStore.Conn): (s: Step<GetReply>)
    ensures s.store.mysql == st.mysql && s.store.redis == st.redis
    ensures s.redisInvoked <==> st.redis.ready && Allowed(st.breaker, now)
    ensures s.store.breaker != st.breaker ==>
      s.redisInvoked && !reply.Completed? && s.store.breaker == MarkDown(st.breaker, now, CooldownMs)
    ensures s.out.Ok? && s.out.value.tier == RedisTier ==>
      s.mysqlQueries == 0 && s.out.value.fallbackReason.None? && Truthy(s.out.value.value)
      && RedisStore.Lookup(st.redis, token, now) == Some(s.out.value.value)
    ensures s.out.Ok? && s.out.value.tier != RedisTier ==>
      s.mysqlQueries >= 1 && s.out.value.value == ValueOf(MysqlStore.Lookup(st.mysql, token, now))
    ensures s.out.Ok? && s.out.value.tier == MysqlTier ==> Truthy(s.out.value.value)
    ensures s.out.Ok? && s.out.value.tier == NoTier ==> !Truthy(s.out.value.value)
    ensures s.out.Err? ==> (retry.Unreachable? && s.out.error == retry.error) || (first.Unreachable? && s.out.error == first.error)
    ensures s.mysqlQueries <= 2
    ensures s.redisInvoked && reply.Completed? && !Truthy(ValueOf(RedisStore.Lookup(st.redis, token, now))) ==>
      s.mysqlQueries == (if first.Reachable? then 1 else 2)
    ensures s.redisInvoked && !reply.Completed? ==> s.store.breaker == MarkDown(st.breaker, now, CooldownMs)
    ensures s.redisInvoked && reply.Completed? && Truthy(ValueOf(RedisStore.Lookup(st.redis, token, now))) ==>
      s.out == Ok(GetReply(ValueOf(RedisStore.Lookup(st.redis, token, now)), RedisTier, None)) && s.mysqlQueries == 0
    ensures s.redisInvoked && reply.Completed? && !Truthy(ValueOf(RedisStore.Lookup(st.redis, token, now))) ==>
      s.out == (match first
                case Reachable => Ok(MysqlReply(ValueOf(MysqlStore.Lookup(st.mysql, token, now)), None))
                case Unreachable(e) =>
                  if retry.Reachable? then Ok(MysqlReply(ValueOf(MysqlStore.Lookup(st.mysql, token, now)), Some(Reason(e))))
                  else Err(retry.error))
    ensures !s.redisInvoked || !reply.Completed? ==>
      s.mysqlQueries == 1
      && s.out == (if first.Reachable?
                   then Ok(MysqlReply(ValueOf(MysqlStore.Lookup(st.mysql, token, now)), Some(Reason(RedisGetFailure(st, now, reply)))))
                   else Err(first.error))
  {
    var a := RedisGetAttempt(st, token, now, reply);
    match a.out
    case Err(e) => GetCaught(a.store, token, now, e, first, a.invoked, 0)
    case Ok(v) =>
      if Truthy(ValueOf(v)) then Step(a.store, Ok(GetReply(ValueOf(v), RedisTier, None)), a.invoked, 0)
      else
        match MysqlStore.Get(a.store.mysql, token, now, first)
        case Ok(mv) => Step(a.store, Ok(MysqlReply(ValueOf(mv), None)), a.invoked, 1)
        case Err(e) => GetCaught(a.store, token, now, e, retry, a.invoked, 1)
  }

  /** `del`: the Redis attempt's error is swallowed; the MySQL delete always runs and its error propagates. */
  function Del(st: Store, token: string, now: nat, reply: RedisStore.Reply, conn: MysqlStore.Conn): (s: Step<bool>)
    ensures s.out.Ok? <==> conn.Reachable?
    ensures s.out.Ok? ==> s.out.value
    ensures s.out.Err? ==> s.out.error == conn.error
    ensures s.mysqlQueries == 1
    ensures conn.Reachable? ==> s.store.mysql.rows == st.mysql.rows - {token}
    ensures conn.Unreachable? ==> s.store.mysql == st.mysql
    ensures s.redisInvoked <==> st.redis.ready && Allowed(st.breaker, now)
    ensures s.redisInvoked && RedisStore.Applied(reply) ==> RedisStore.Key(token) !in s.store.redis.data
    ensures s.redisInvoked && !reply.Completed? ==> s.store.breaker == MarkDown(st.breaker, now, CooldownMs)
    ensures s.redisInvoked && reply.Completed? ==> s.store.breaker == st.breaker
    ensures !s.redisInvoked ==> s.store.redis == st.redis && s.store.breaker == st.breaker
    ensures !RedisStore.Applied(reply) ==> s.store.redis == st.redis
    ensures forall t, at: nat :: t != token ==>
      RedisStore.Lookup(s.store.redis, t, at) == RedisStore.Lookup(st.redis, t, at)
  {
    var a := TryRedis(st, now, c => RedisStore.Del(c, token, reply));
    var m := MysqlStore.Del(a.store.mysql, token, conn);
    var st' := a.store.(mysql := m.db);
    match m.out
    case Err(e) => Step(st', Err(e), a.invoked, 1)
    case Ok(_) => Step(st', Ok(true), a.invoked, 1)
  }

  /** With Redis ready, the breaker closed and Redis answering, a session is written to Redis
      only and read back from Redis. */
  lemma HealthyRoundTrip(st: Store, token: string, p: Payload, ttlSeconds: int, now: nat, conn: MysqlStore.Conn,
                         first: MysqlStore.Conn, retry: MysqlStore.Conn)
    requires st.redis.ready && Allowed(st.breaker, now) && ttlSeconds > 0 && Truthy(p)
    ensures Set(st, token, p, ttlSeconds, now, RedisStore.Completed, conn).out == Ok(SetReply(RedisTier, None))
    ensures Get(Set(st, token, p, ttlSeconds, now, RedisStore.Completed, conn).store, token, now,
                RedisStore.Completed, first, retry).out == Ok(GetReply(p, RedisTier, None))
  {
  }

  /** With the Redis client not ready, `set` lands in MySQL and `get` finds it there; both
      report `REDIS_NOT_READY`. */
  lemma RedisOutageRoundTrip(st: Store, token: string, p: Payload, ttlSeconds: int, now: nat,
                             setReply: RedisStore.Reply, getReply: RedisStore.Reply, retry: MysqlStore.Conn)
    requires !st.redis.ready && ttlSeconds > 0 && Truthy(p)
    ensures Set(st, token, p, ttlSeconds, now, setReply, MysqlStore.Reachable).out
         == Ok(SetReply(MysqlTier, Some("REDIS_NOT_READY")))
    ensures Get(Set(st, token, p, ttlSeconds, now, setReply, MysqlStore.Reachable).store, token, now,
                getReply, MysqlStore.Reachable, retry).out
         == Ok(GetReply(p, MysqlTier, Some("REDIS_NOT_READY")))
  {
  }

  /** Whichever tier `set` chose, a `get` at the same instant returns the payload, provided the
      Redis read (if issued) does not fail and MySQL answers. */
  lemma RoundTrip(st: Store, token: string, p: Payload, ttlSeconds: int, now: nat,
                  setReply: RedisStore.Reply, conn: MysqlStore.Conn, retry: MysqlStore.Conn)
    requires ttlSeconds > 0 && Truthy(p)
    requires Set(st, token, p, ttlSeconds, now, setReply, conn).out.Ok?
    ensures Get(Set(st, token, p, ttlSeconds, now, setReply, conn).store, token, now,
                RedisStore.Completed, MysqlStore.Reachable, retry).out.Ok?
    ensures Get(Set(st, token, p, ttlSeconds, now, setReply, conn).store, token, now,
                RedisStore.Completed, MysqlStore.Reachable, retry).out.value.value == p
  {
    var s := Set(st, token, p, ttlSeconds, now, setReply, conn);
    var a := RedisSetAttempt(st, token, p, ttlSeconds, now, setReply);
    if a.out.Ok? {
      assert s.store.redis == RedisStore.Set(st.redis, token, p, ttlSeconds, now, setReply).client;
    } else if a.invoked {
      assert !Allowed(s.store.breaker, now);
    }
  }

  /** A session that `set` wrote to Redis alone is lost to a `get` whose Redis read fails:
      the fallback read finds nothing in MySQL. */
  lemma RedisCopyLostOnReadFailure(st: Store, token: string, p: Payload, ttlSeconds: int, now: nat,
                                   conn: MysqlStore.Conn, e: Error, retry: MysqlStore.Conn)
    requires st.redis.ready && Allowed(st.breaker, now) && ttlSeconds > 0
    requires MysqlStore.Lookup(st.mysql, token, now) == None
    ensures Set(st, token, p, ttlSeconds, now, RedisStore.Completed, conn).out == Ok(SetReply(RedisTier, None))
    ensures Get(Set(st, token, p, ttlSeconds, now, RedisStore.Completed, conn).store, token, now,
                RedisStore.Rejected(e), MysqlStore.Reachable, retry).out
         == Ok(GetReply(Null, NoTier, Some(Reason(e))))
  {
  }

  /** A Redis write that times out after the server applied it still sends the session to
      MySQL, so both tiers then hold it. */
  lemma LateTimeoutWritesBothTiers(st: Store, token: string, p: Payload, ttlSeconds: int, now: nat)
    requires st.redis.ready && Allowed(st.breaker, now) && ttlSeconds > 0
    ensures Set(st, token, p, ttlSeconds, now, RedisStore.TimedOut(true), MysqlStore.Reachable).out
         == Ok(SetReply(MysqlTier, Some("timeout:setEx:800ms")))
    ensures RedisStore.Lookup(Set(st, token, p, ttlSeconds, now, RedisStore.TimedOut(true), MysqlStore.Reachable).store.redis, token, now)
         == Some(p)
    ensures MysqlStore.Lookup(Set(st, token, p, ttlSeconds, now, RedisStore.TimedOut(true), MysqlStore.Reachable).store.mysql, token, now)
         == Some(p)
  {
    assert Decimal(800) == "800";
    assert RedisStore.TimeoutError("setEx").message == "timeout:setEx:800ms";
  }

  /** When Redis misses and the MySQL read then fails, the shared `catch` reads MySQL again
      and reports the MySQL error as the `fallback_reason`. */
  lemma MissPathMysqlErrorIsRetried(st: Store, token: string, now: nat, e: Error)
    requires st.redis.ready && Allowed(st.breaker, now)
    requires !Truthy(ValueOf(RedisStore.Lookup(st.redis, token, now)))
    ensures Get(st, token, now, RedisStore.Completed, MysqlStore.Unreachable(e), MysqlStore.Reachable).mysqlQueries == 2
    ensures Get(st, token, now, RedisStore.Completed, MysqlStore.Unreachable(e), MysqlStore.Reachable).out
         == Ok(MysqlReply(ValueOf(MysqlStore.Lookup(st.mysql, token, now)), Some(Reason(e))))
  {
  }

  /** If the Redis delete fails, `del` still reports success and clears MySQL, but once the
      cooldown has passed the Redis copy answers `get` again. */
  lemma FailedRedisDeleteLeavesSessionLive(st: Store, token: string, p: Payload, now: nat, later: nat, e: Error,
                                           first: MysqlStore.Conn, retry: MysqlStore.Conn)
    requires st.redis.ready && Allowed(st.breaker, now) && Truthy(p)
    requires RedisStore.Lookup(st.redis, token, later) == Some(p)
    requires later >= now + CooldownMs
    ensures Del(st, token, now, RedisStore.Rejected(e), MysqlStore.Reachable).out == Ok(true)
    ensures MysqlStore.Lookup(Del(st, token, now, RedisStore.Rejected(e), MysqlStore.Reachable).store.mysql, token, later) == None
    ensures Get(Del(st, token, now, RedisStore.Rejected(e), MysqlStore.Reachable).store, token, later,
                RedisStore.Completed, first, retry).out == Ok(GetReply(p, RedisTier, None))
  {
  }

  /** A `del` that both tiers carry out leaves nothing for the next `get` at any later instant. */
  lemma DelThenGet(st: Store, token: string, now: nat, later: nat, reply: RedisStore.Reply, retry: MysqlStore.Conn)
    requires st.redis.ready && Allowed(st.breaker, now) && now <= later
    ensures Del(st, token, now, RedisStore.Completed, MysqlStore.Reachable).out == Ok(true)
    ensures Get(Del(st, token, now, RedisStore.Completed, MysqlStore.Reachable).store, token, later,
                reply, MysqlStore.Reachable, retry).out.value.value == Null
    ensures Get(Del(st, token, now, RedisStore.Completed, MysqlStore.Reachable).store, token, later,
                RedisStore.Completed, MysqlStore.Reachable, retry).out == Ok(GetReply(Null, NoTier, None))
  {
  }

  /** Runs `get` at each instant in turn and records whether each call invoked Redis. */
  function GetsInvokingRedis(st: Store, token: string, times: seq<nat>, reply: RedisStore.Reply,
                             first: MysqlStore.Conn, retry: MysqlStore.Conn): (r: (Store, seq<bool>))
    ensures |r.1| == |times|
    decreases |times|
  {
    if |times| == 0 then (st, [])
    else
      var s := Get(st, token, times[0], reply, first, retry);
      var rest := GetsInvokingRedis(s.store, token, times[1..], reply, first, retry);
      (rest.0, [s.redisInvoked] + rest.1)
  }

  /** A failed Redis attempt opens the breaker; every `get` inside the cooldown window then
      leaves Redis alone and the window where it was. */
  lemma {:induction false} GetsSuppressedWithinCooldown(st: Store, token: string, times: seq<nat>, reply: RedisStore.Reply,
                                                          first: MysqlStore.Conn, retry: MysqlStore.Conn)
    requires forall i :: 0 <= i < |times| ==> times[i] < st.breaker.downUntil
    ensures GetsInvokingRedis(st, token, times, reply, first, retry).0 == st
    ensures forall i :: 0 <= i < |times| ==> !GetsInvokingRedis(st, token, times, reply, first, retry).1[i]
    decreases |times|
  {
    if |times| > 0 {
      var s := Get(st, token, times[0], reply, first, retry);
      assert s.store == st;
      GetsSuppressedWithinCooldown(st, token, times[1..], reply, first, retry);
    }
  }

  /** After a Redis read failure at `now`, gets inside the next 5 s skip Redis; a get at the
      end of the window (with a ready client) tries Redis again. */
  lemma BreakerSuppressesThenRecovers(st: Store, token: string, now: nat, e: Error, times: seq<nat>,
                                      reply: RedisStore.Reply, first: MysqlStore.Conn, retry: MysqlStore.Conn)
    requires st.redis.ready && Allowed(st.breaker, now)
    requires forall i :: 0 <= i < |times| ==> now <= times[i] < now + CooldownMs
    ensures forall i :: 0 <= i < |times| ==>
      !GetsInvokingRedis(Get(st, token, now, RedisStore.Rejected(e), first, retry).store, token, times, reply, first, retry).1[i]
    ensures Get(Get(st, token, now, RedisStore.Rejected(e), first, retry).store, token, now + CooldownMs, reply, first, retry).redisInvoked
  {
    var s := Get(st, token, now, RedisStore.Rejected(e), first, retry);
    assert s.store.breaker == MarkDown(st.breaker, now, CooldownMs);
    GetsSuppressedWithinCooldown(s.store, token, times, reply, first, retry);
  }
}

=== FILE: redis_store.dfy ===
/** The Redis adapter (store/redisSessionStore.js): sessions under `sess:`-prefixed keys,
    a readiness guard before `set` and `get`, a tolerant `del`, and an 800 ms bound on every
    command. The command's fate is an input: it completes, exceeds the bound, or fails. */
module RedisStore {
  import opened Outcomes
  import opened Session

  /** Every command must settle within this many milliseconds. */
  const CommandTimeoutMs: nat := 800
  const KeyPrefix: string := "sess:"

  /** A stored value with its Redis-native expiry (absolute, in milliseconds). */
  datatype Entry = Entry(payload: Payload, expiresAt: int)

  /** The client handle: whether it exists and is ready, and the server's key space. */
  datatype Client = Client(ready: bool, data: map<string, Entry>)

  /** How one issued command settles. A command that exceeds the bound may still have been
      carried out by the server (`applied`); a rejected command was not. */
  datatype Reply = Completed | TimedOut(applied: bool) | Rejected(error: Error)

  datatype Step<+T> = Step(client: Client, out: Result<T>)

  function Key(token: string): string
  {
    KeyPrefix + token
  }

  /** Distinct tokens never share a key. */
  lemma KeyInjective(a: string, b: string)
    ensures Key(a) == Key(b) <==> a == b
  {
    if Key(a) == Key(b) {
      assert a == Key(a)[|KeyPrefix|..];
      assert b == Key(b)[|KeyPrefix|..];
    }
  }

  function NotReadyError(): Error
  {
    Error("REDIS_NOT_READY", "redis_not_ready")
  }

  /** The rejection `withTimeout` produces for the named command. */
  function TimeoutError(command: string): Error
  {
    Error("", "timeout:" + command + ":" + Decimal(CommandTimeoutMs) + "ms")
  }

  /** The error a settled command raises, if any. */
  function Failure(reply: Reply, command: string): Option<Error>
  {
    match reply
    case Completed => None
    case TimedOut(_) => Some(TimeoutError(command))
    case Rejected(e) => Some(e)
  }

  predicate Applied(reply: Reply)
  {
    reply.Completed? || (reply.TimedOut? && reply.applied)
  }

  /** What a successful `GET` of the token's key yields at time `now`. */
  function Lookup(c: Client, token: string, now: nat): Option<Payload>
  {
    var k := Key(token);
    if k in c.data && now < c.data[k].expiresAt then Some(c.data[k].payload) else None
  }

  /** `set`: readiness first, then `SETEX sess:<token>` under the timeout. */
  function Set(c: Client, token: string, p: Payload, ttlSeconds: int, now: nat, reply: Reply): (s: Step<bool>)
    ensures !c.ready ==> s == Step(c, Err(NotReadyError()))
    ensures c.ready && reply.Completed? ==> s.out == Ok(true)
    ensures c.ready && reply.Rejected? ==> s == Step(c, Err(reply.error))
    ensures c.ready && reply.TimedOut? ==> s.out == Err(TimeoutError("setEx"))
    ensures s.client.ready == c.ready
    ensures c.ready && Applied(reply) ==>
      forall at: nat :: Lookup(s.client, token, at) == if at < ExpiryAt(now, ttlSeconds) then Some(p) else None
    ensures !Applied(reply) ==> s.client == c
    ensures forall t, at: nat :: t != token ==> Lookup(s.client, t, at) == Lookup(c, t, at)
  {
    if !c.ready then Step(c, Err(NotReadyError()))
    else
      var c' := if Applied(reply) then c.(data := c.data[Key(token) := Entry(p, ExpiryAt(now, ttlSeconds))]) else c;
      assert forall t :: t != token ==> Key(t) != Key(token) by {
        forall t | t != token { KeyInjective(t, token); }
      }
      match Failure(reply, "setEx")
      case None => Step(c', Ok(true))
      case Some(e) => Step(c', Err(e))
  }

  /** `get`: readiness first, then `GET sess:<token>`; an absent key reads as `null`. */
  function Get(c: Client, token: string, now: nat, reply: Reply): (r: Result<Option<Payload>>)
    ensures !c.ready ==> r == Err(NotReadyError())
    ensures c.ready && reply.Completed? ==> r == Ok(Lookup(c, token, now))
    ensures c.ready && reply.Rejected? ==> r == Err(reply.error)
    ensures c.ready && reply.TimedOut? ==> r == Err(TimeoutError("get"))
  {
    if !c.ready then Err(NotReadyError())
    else
      match Failure(reply, "get")
      case None => Ok(Lookup(c, token, now))
      case Some(e) => Err(e)
  }

  /** `del`: a client that is not ready makes it a successful no-op; otherwise `DEL` under the timeout. */
  function Del(c: Client, token: string, reply: Reply): (s: Step<bool>)
    ensures !c.ready ==> s == Step(c, Ok(true))
    ensures c.ready ==> (s.out.Ok? <==> reply.Completed?)
    ensures s.out.Ok? ==> s.out.value
    ensures c.ready && Applied(reply) ==> Key(token) !in s.client.data
    ensures !Applied(reply) ==> s.client == c
    ensures c.ready ==> s.out == match Failure(reply, "del") case None => Ok(true) case Some(e) => Err(e)
    ensures forall t, at: nat :: t != token ==> Lookup(s.client, t, at) == Lookup(c, t, at)
    ensures s.client.ready == c.ready
  {
    if !c.ready then Step(c, Ok(true))
    else
      var c' := if Applied(reply) then c.(data := c.data - {Key(token)}) else c;
      assert forall t :: t != token ==> Key(t) != Key(token) by {
        forall t | t != token { KeyInjective(t, token); }
      }
      match Failure(reply, "del")
      case None => Step(c', Ok(true))
      case Some(e) => Step(c', Err(e))
  }

  /** A completed `set` with a positive TTL is read back by `get` at any instant before it expires. */
  lemma SetThenGet(c: Client, token: string, p: Payload, ttlSeconds: int, now: nat, later: nat)
    requires c.ready && ttlSeconds > 0 && now <= later < ExpiryAt(now, ttlSeconds)
    ensures Get(Set(c, token, p, ttlSeconds, now, Completed).client, token, later, Completed) == Ok(Some(p))
  {
  }

  /** Once its TTL has run out the stored value reads as `null`. */
  lemma SetThenExpire(c: Client, token: string, p: Payload, ttlSeconds: int, now: nat, later: nat)
    requires c.ready && later >= ExpiryAt(now, ttlSeconds)
    ensures Get(Set(c, token, p, ttlSeconds, now, Completed).client, token, later, Completed) == Ok(None)
  {
  }

  /** A completed `del` makes the next `get` of that token read `null`. */
  lemma DelThenGet(c: Client, token: string, now: nat)
    requires c.ready
    ensures Get(Del(c, token, Completed).client, token, now, Completed) == Ok(None)
  {
  }
}

=== FILE: server.dfy ===
/** The pure pieces of server.js around the store: the Bearer-header parser, the Redis
    reconnect backoff, the Redis error-log throttle, the health flags and the two rejection
    guards of the `auth` middleware. */
module Server {
  import opened Outcomes
  import opened Session
  import opened Text
  import RedisStore
  import MysqlStore
  import PrimaryStore

  // ---- readBearerToken: the scheme in any case, whitespace, then the credentials to the end ----

  const Scheme: string := "bearer"

  /** Case folding of the `i` flag: only ASCII letters fold to ASCII letters. */
  function AsciiLower(c: char): char
  {
    if 'A' <= c <= 'Z' then c - 'A' + 'a' else c
  }

  /** The header starts with "Bearer" in any letter case. */
  predicate SchemeMatches(h: string)
  {
    |h| >= |Scheme| && forall i :: 0 <= i < |Scheme| ==> AsciiLower(h[i]) == Scheme[i]
  }

  /** After the scheme, `\s+` can take the first `k` characters and `(.+)$` the rest. */
  predicate SplitsAt(rest: string, k: int)
  {
    1 <= k < |rest| && AllSpace(rest[..k]) && NoLineTerminator(rest[k..])
  }

  /** Where the greedy `\s+` stops once backtracking has found a match. */
  function Split(rest: string): (k: Option<nat>)
    ensures k.Some? ==> SplitsAt(rest, k.value)
    ensures k.Some? ==> forall k' :: k.value < k' ==> !SplitsAt(rest, k')
    ensures k.None? ==> forall k' :: !SplitsAt(rest, k')
  {
    var w := LeadingSpaces(rest);
    assert forall k' :: SplitsAt(rest, k') ==> k' <= w by {
      forall k' | SplitsAt(rest, k') && w < k' ensures false {
        SpaceInPrefix(rest, k', w);
      }
    }
    if w == 0 then None
    else if w < |rest| then
      if NoLineTerminator(rest[w..]) then Some(w)
      else
        var q :| w <= q < |rest| && IsLineTerminator(rest[q]);
        assert forall k' :: 0 <= k' <= w ==> rest[k'..][q - k'] == rest[q];
        None
    else if w >= 2 && !IsLineTerminator(rest[w - 1]) then
      var front := rest[..w - 1];
      assert AllSpace(front) by {
        forall i | 0 <= i < |front| ensures IsSpace(front[i]) {
          SpaceInPrefix(rest, w, i);
        }
      }
      Some(w - 1)
    else
      assert forall k' :: 0 <= k' < w - 1 ==> rest[k'..][w - 1 - k'] == rest[w - 1];
      None
  }

  /** `readBearerToken`: `null` without an Authorization header, the captured credentials
      when the header matches the pattern, `null` otherwise. */
  function ReadBearerToken(header: Option<string>): (r: Option<string>)
    ensures header.None? || header == Some("") ==> r.None?
    ensures r.Some? ==> header.Some? && SchemeMatches(header.value)
    ensures r.Some? ==> exists k :: SplitsAt(header.value[|Scheme|..], k) && r.value == header.value[|Scheme| + k..]
    ensures r.Some? ==>
      Split(header.value[|Scheme|..]).Some? && r.value == header.value[|Scheme| + Split(header.value[|Scheme|..]).value..]
    ensures r.Some? ==> |r.value| > 0 && NoLineTerminator(r.value)
    ensures header.Some? && SchemeMatches(header.value) && (exists k :: SplitsAt(header.value[|Scheme|..], k)) ==> r.Some?
  {
    match header
    case None => None
    case Some(h) =>
      if h == "" || !SchemeMatches(h) then None
      else
        var rest := h[|Scheme|..];
        match Split(rest)
        case None => None
        case Some(k) =>
          assert rest[k..] == h[|Scheme| + k..];
          Some(rest[k..])
  }

  /** A header that ends in whitespace after the scheme yields its last whitespace
      character: `\s+` gives one back so that `(.+)` can match. */
  lemma BearerTrailingSpace()
    ensures ReadBearerToken(Some("Bearer  ")) == Some(" ")
  {
    var rest := "  ";
    assert "Bearer  "[|Scheme|..] == rest;
    assert LeadingSpaces(rest[1..]) == 1;
    assert LeadingSpaces(rest) == 2;
  }

  /** Surplus whitespace between the scheme and the credentials is not part of the token. */
  lemma BearerSkipsSpaces()
    ensures ReadBearerToken(Some("bearer \t abc")) == Some("abc")
  {
    var rest := " \t abc";
    assert "bearer \t abc"[|Scheme|..] == rest;
    assert LeadingSpaces(rest[3..]) == 0;
    assert LeadingSpaces(rest[2..]) == 1;
    assert LeadingSpaces(rest[1..]) == 2;
    assert LeadingSpaces(rest) == 3;
    assert rest[3..] == "abc";
  }

  /** A line terminator cannot be captured, so a header ending in one after the scheme is rejected. */
  lemma BearerRejectsLineEnd()
    ensures ReadBearerToken(Some("Bearer \n")) == None
  {
    var rest := " \n";
    assert "Bearer \n"[|Scheme|..] == rest;
    assert LeadingSpaces(rest[1..]) == 1;
    assert LeadingSpaces(rest) == 2;
  }

  /** A token without whitespace survives `"Bearer " + token` unchanged. */
  lemma BearerRoundTrip(token: string)
    requires token != "" && forall i :: 0 <= i < |token| ==> !IsSpace(token[i])
    ensures ReadBearerToken(Some("Bearer " + token)) == Some(token)
  {
    var h := "Bearer " + token;
    var rest := h[|Scheme|..];
    assert rest == " " + token;
    assert SplitsAt(rest, 1) by {
      assert rest[1..] == token;
      assert rest[..1] == " ";
    }
    assert Split(rest) == Some(1) by {
      assert forall k' :: 1 < k' ==> !SplitsAt(rest, k') by {
        forall k' | 1 < k' && SplitsAt(rest, k') ensures false {
          SpaceInPrefix(rest, k', 1);
        }
      }
    }
  }

  // ---- reconnectStrategy: 500 ms more per retry, capped at 5 s ----

  const ReconnectStepMs: nat := 500
  const MaxReconnectDelayMs: nat := 5000

  function ReconnectDelay(retries: nat): (d: nat)
    ensures d <= MaxReconnectDelayMs
    ensures d % ReconnectStepMs == 0
    ensures d == MaxReconnectDelayMs <==> retries >= 10
    ensures d <= retries * ReconnectStepMs
    ensures d == retries * ReconnectStepMs || d == MaxReconnectDelayMs
  {
    if retries * ReconnectStepMs < MaxReconnectDelayMs then retries * ReconnectStepMs else MaxReconnectDelayMs
  }

  /** Later retries never wait less. */
  lemma ReconnectDelayMonotone(a: nat, b: nat)
    requires a <= b
    ensures ReconnectDelay(a) <= ReconnectDelay(b)
  {
  }

  // ---- the Redis "error" handler: log at most once per 10 s ----

  const ErrorLogIntervalMs: int := 10_000

  /** `lastErrAt`, which starts at 0. */
  datatype Throttle = Throttle(lastErrAt: int)

  /** One error event at `now`: whether it is logged, and the updated throttle. */
  function OnRedisError(t: Throttle, now: nat): (r: (Throttle, bool))
    ensures r.1 ==> r.0.lastErrAt == now && now > t.lastErrAt + ErrorLogIntervalMs
    ensures !r.1 ==> r.0 == t && now <= t.lastErrAt + ErrorLogIntervalMs
  {
    if now - t.lastErrAt > ErrorLogIntervalMs then (Throttle(now), true) else (t, false)
  }

  /** Feeds a sequence of error instants through the handler; returns the final throttle and
      the instants that were logged. */
  function LoggedErrors(t: Throttle, times: seq<nat>): (r: (Throttle, seq<int>))
    decreases |times|
  {
    if |times| == 0 then (t, [])
    else
      var (t1, logged) := OnRedisError(t, times[0]);
      var rest := LoggedErrors(t1, times[1..]);
      (rest.0, (if logged then [times[0] as int] else []) + rest.1)
  }

  /** Logged errors are more than 10 s apart from each other and from the starting
      `lastErrAt`, and `lastErrAt` ends at the last logged instant. */
  lemma {:induction false} LoggedErrorsSpaced(t: Throttle, times: seq<nat>)
    ensures var l := LoggedErrors(t, times).1;
      && (|l| > 0 ==> l[0] > t.lastErrAt + ErrorLogIntervalMs)
      && (forall i :: 0 <= i < |l| - 1 ==> l[i + 1] > l[i] + ErrorLogIntervalMs)
      && LoggedErrors(t, times).0.lastErrAt == (if |l| == 0 then t.lastErrAt else l[|l| - 1])
    decreases |times|
  {
    if |times| > 0 {
      var (t1, logged) := OnRedisError(t, times[0]);
      LoggedErrorsSpaced(t1, times[1..]);
    }
  }

  // ---- /api/health ----

  datatype Health = Health(ok: bool, mysql: bool, redis: bool, degraded: bool)

  /** The reply of `/api/health` given which pings succeeded. */
  function HealthReport(mysqlUp: bool, redisUp: bool): (h: Health)
    ensures h.mysql == mysqlUp && h.redis == redisUp
    ensures h.ok <==> mysqlUp
    ensures h.degraded <==> h.ok && !redisUp
  {
    Health(mysqlUp, mysqlUp, redisUp, mysqlUp && !redisUp)
  }

  /** Only three reports can occur: healthy, degraded, and down (never "degraded but not ok"). */
  lemma HealthReportsReachable(mysqlUp: bool, redisUp: bool)
    ensures HealthReport(mysqlUp, redisUp) in {
      Health(true, true, true, false), Health(true, true, false, true),
      Health(false, false, true, false), Health(false, false, false, false) }
  {
  }

  // ---- the auth middleware ----

  datatype AuthOutcome =
    | Unauthorized                                              // 401 "auth failed"
    | InternalError                                             // 500 "internal_error"
    | Authenticated(token: string, session: Payload, tier: Tier)

  /** `auth`: 401 without a Bearer token, 401 when the store's value is falsy, 500 when the
      store's `get` rejects; otherwise the request carries the token and session onward. */
  function Auth(st: PrimaryStore.Store, header: Option<string>, now: nat, reply: RedisStore.Reply,
                first: MysqlStore.Conn, retry: MysqlStore.Conn): (r: (PrimaryStore.Store, AuthOutcome))
    ensures ReadBearerToken(header).None? ==> r == (st, Unauthorized)
    ensures r.1.Authenticated? ==> ReadBearerToken(header) == Some(r.1.token) && Truthy(r.1.session)
    ensures ReadBearerToken(header).Some? ==>
      var s := PrimaryStore.Get(st, ReadBearerToken(header).value, now, reply, first, retry);
      && r.0 == s.store
      && (r.1 == InternalError <==> s.out.Err?)
      && (r.1 == Unauthorized <==> s.out.Ok? && !Truthy(s.out.value.value))
      && (r.1.Authenticated? ==> r.1.session == s.out.value.value && r.1.tier == s.out.value.tier)
  {
    match ReadBearerToken(header)
    case None => (st, Unauthorized)
    case Some(token) =>
      var s := PrimaryStore.Get(st, token, now, reply, first, retry);
      match s.out
      case Err(_) => (s.store, InternalError)
      case Ok(out) =>
        if !Truthy(out.value) then (s.store, Unauthorized)
        else (s.store, Authenticated(token, out.value, out.tier))
  }

  /** Login then request: a session stored by the login's `set` authenticates the bearer of
      its token at the same instant, provided the Redis read does not fail and MySQL answers. */
  lemma LoginThenAuthenticate(st: PrimaryStore.Store, token: string, p: Payload, ttlSeconds: int, now: nat,
                              setReply: RedisStore.Reply, conn: MysqlStore.Conn, retry: MysqlStore.Conn)
    requires token != "" && forall i :: 0 <= i < |token| ==> !IsSpace(token[i])
    requires ttlSeconds > 0 && Truthy(p)
    requires PrimaryStore.Set(st, token, p, ttlSeconds, now, setReply, conn).out.Ok?
    ensures
      var st' := PrimaryStore.Set(st, token, p, ttlSeconds, now, setReply, conn).store;
      var r := Auth(st', Some("Bearer " + token), now, RedisStore.Completed, MysqlStore.Reachable, retry);
      r.1.Authenticated? && r.1.token == token && r.1.session == p
  {
    BearerRoundTrip(token);
    PrimaryStore.RoundTrip(st, token, p, ttlSeconds, now, setReply, conn, retry);
  }
}

=== FILE: session.dfy ===
/** The session record as both tiers see it. */
module Session {
  import opened Outcomes

  /** A session payload after a JSON round trip; parsing what was serialized is taken to
      give back the same value. Objects and arrays are opaque to the store. */
  datatype Payload =
    | Null
    | Bool(b: bool)
    | Num(n: real)
    | Str(s: string)
    | Compound(fields: map<string, string>)

  /** JavaScript truthiness, which the facades use to tell a hit from a miss. */
  predicate Truthy(p: Payload)
  {
    match p
    case Null => false
    case Bool(b) => b
    case Num(n) => n != 0.0
    case Str(s) => s != ""
    case Compound(_) => true
  }

  /** An adapter's `null` for an absent session, as the facades pass it on. */
  function ValueOf(o: Option<Payload>): Payload
  {
    match o
    case None => Null
    case Some(p) => p
  }

  /** The `session_store` tag of a facade result. */
  datatype Tier = RedisTier | MysqlTier | NoTier

  /** Milliseconds in one second: both tiers turn a TTL in seconds into an absolute expiry. */
  const MsPerSecond: int := 1000

  function ExpiryAt(now: nat, ttlSeconds: int): int
  {
    now + ttlSeconds * MsPerSecond
  }
}

=== FILE: store_type.dfy ===
/** Store-type dispatch (store/sessionStore.js): the configured type is lower-cased and
    trimmed, defaults to "redis", and selects one of three stores. */
module StoreType {
  import opened Outcomes
  import opened Text

  /** The breaker window the dispatcher passes to the durable-first store. */
  const ConfiguredBreakerMs: nat := 3000

  datatype Kind = MysqlOnly | Fallback(breakerMs: nat) | RedisOnly

  /** The configured type, lower-cased and trimmed; an absent or empty type reads as "redis". */
  function Normalize(t: Option<string>): (r: string)
    ensures r == "" || (!IsSpace(r[0]) && !IsSpace(r[|r| - 1]))
    ensures t.Some? && t.value != "" ==> |r| <= |t.value|
  {
    var raw := match t case None => "redis" case Some(s) => if s == "" then "redis" else s;
    Trim(Lower(raw))
  }

  /** The store the dispatcher builds for the configured type. */
  function Select(t: Option<string>): (k: Kind)
    ensures t.None? || t == Some("") ==> k == RedisOnly
    ensures k.Fallback? ==> k.breakerMs == ConfiguredBreakerMs
  {
    NormalizeDefault();
    var n := Normalize(t);
    if n == "mysql" then MysqlOnly
    else if n == "fallback" then Fallback(ConfiguredBreakerMs)
    else RedisOnly
  }

  /** `s` spells `word` up to surrounding whitespace and letter case. */
  ghost predicate Spells(s: string, word: string)
  {
    exists i, j :: 0 <= i <= j <= |s| && AllSpace(s[..i]) && AllSpace(s[j..]) && Lower(s[i..j]) == word
  }

  /** A missing or empty type normalizes to "redis". */
  lemma NormalizeDefault()
    ensures Normalize(None) == "redis" && Normalize(Some("")) == "redis"
  {
    var r := "redis";
    assert Lower(r) == r;
    assert !IsSpace(r[0]) && !IsSpace(r[4]);
    assert r[..0] == [] && r[5..] == [];
    TrimUnique(r, 0, 5);
    assert r[0..5] == r;
  }

  /** A prefix and suffix that are whitespace-only after lower-casing were so before it. */
  lemma SpaceThroughLower(s: string, i: int, j: int)
    requires 0 <= i <= j <= |s|
    requires AllSpace(Lower(s)[..i]) && AllSpace(Lower(s)[j..])
    ensures AllSpace(s[..i]) && AllSpace(s[j..])
  {
    var l := Lower(s);
    assert l[..i] == Lower(s[..i]);
    assert l[j..] == Lower(s[j..]);
  }

  /** What a non-empty type normalizes to, it spells. */
  lemma SpellsNormalized(s: string)
    requires s != ""
    ensures Spells(s, Normalize(Some(s)))
  {
    var l := Lower(s);
    var r := Trim(l);
    assert Normalize(Some(s)) == r;
    var i, j :| TrimmedAt(l, i, j) && r == l[i..j];
    assert TrimmedAt(l, i, j);
    SpaceThroughLower(s, i, j);
    LowerSlice(s, i, j);
    assert 0 <= i <= j <= |s| && AllSpace(s[..i]) && AllSpace(s[j..]) && Lower(s[i..j]) == r;
  }

  /** Lower-casing commutes with taking a slice. */
  lemma LowerSlice(s: string, i: int, j: int)
    requires 0 <= i <= j <= |s|
    ensures Lower(s[i..j]) == Lower(s)[i..j]
  {
  }

  /** A whitespace-only prefix and suffix stay whitespace-only after lower-casing. */
  lemma SpaceIntoLower(s: string, i: int, j: int)
    requires 0 <= i <= j <= |s|
    requires AllSpace(s[..i]) && AllSpace(s[j..])
    ensures AllSpace(Lower(s)[..i]) && AllSpace(Lower(s)[j..])
  {
    var l := Lower(s);
    assert l[..i] == Lower(s[..i]);
    assert l[j..] == Lower(s[j..]);
  }

  /** A type that spells a word with non-space ends normalizes to that word. */
  lemma NormalizeSpelled(s: string, word: string, i: int, j: int)
    requires word != "" && !IsSpace(word[0]) && !IsSpace(word[|word| - 1])
    requires 0 <= i <= j <= |s| && AllSpace(s[..i]) && AllSpace(s[j..]) && Lower(s[i..j]) == word
    ensures Trim(Lower(s)) == word
  {
    var l := Lower(s);
    assert l[i..j] == Lower(s[i..j]);
    SpaceIntoLower(s, i, j);
    assert l[i] == word[0];
    assert l[j - 1] == word[|word| - 1];
    TrimUnique(l, i, j);
  }

  /** Normalizing yields a word (other than the default) exactly when the input spells it. */
  lemma NormalizeSpells(s: string, word: string)
    requires word != "" && word != "redis" && !IsSpace(word[0]) && !IsSpace(word[|word| - 1])
    ensures Normalize(Some(s)) == word <==> Spells(s, word)
  {
    NormalizeDefault();
    if Normalize(Some(s)) == word {
      SpellsNormalized(s);
    }
    if Spells(s, word) {
      var i, j :| 0 <= i <= j <= |s| && AllSpace(s[..i]) && AllSpace(s[j..]) && Lower(s[i..j]) == word;
      NormalizeSpelled(s, word, i, j);
    }
  }

  /** "mysql", in any case and with any surrounding whitespace, selects the MySQL store. */
  lemma SelectMysqlIff(s: string)
    ensures Select(Some(s)) == MysqlOnly <==> Spells(s, "mysql")
  {
    NormalizeSpells(s, "mysql");
  }

  /** "fallback", likewise, selects the durable-first store with a 3000 ms breaker. */
  lemma SelectFallbackIff(s: string)
    ensures Select(Some(s)) == Fallback(3000) <==> Spells(s, "fallback")
    ensures Select(Some(s)).Fallback? ==> Select(Some(s)).breakerMs == 3000
  {
    NormalizeSpells(s, "fallback");
  }

  /** Everything else, including a missing or empty type, selects the Redis store. */
  lemma SelectRedisOtherwise(t: Option<string>)
    ensures Select(t) == RedisOnly <==> t.None? || !(Spells(t.value, "mysql") || Spells(t.value, "fallback"))
  {
    if t.Some? {
      SelectRedisUnlessSpelled(t.value);
    }
  }

  /** A present type selects Redis exactly when it spells neither other word. */
  lemma SelectRedisUnlessSpelled(s: string)
    ensures Select(Some(s)) == RedisOnly <==> !(Spells(s, "mysql") || Spells(s, "fallback"))
  {
    SelectMysqlIff(s);
    SelectFallbackIff(s);
  }
}

=== FILE: text.dfy ===
/** The pieces of JavaScript string semantics the store's callers rely on:
    `String.prototype.trim`, the regular-expression classes `\s` and `.`,
    and `toLowerCase`. */
module Text {

  /** WhiteSpace and LineTerminator of ECMAScript: the set `trim` strips and `\s` matches. */
  predicate IsSpace(c: char)
  {
    var n := c as int;
    n == 0x09 || n == 0x0B || n == 0x0C || n == 0x20 || n == 0xA0 || n == 0xFEFF
    || n == 0x1680 || (0x2000 <= n <= 0x200A) || n == 0x202F || n == 0x205F || n == 0x3000
    || IsLineTerminator(c)
  }

  /** The characters the regular-expression `.` does not match (no `s` flag). */
  predicate IsLineTerminator(c: char)
  {
    var n := c as int;
    n == 0x0A || n == 0x0D || n == 0x2028 || n == 0x2029
  }

  predicate AllSpace(s: string)
  {
    forall k :: 0 <= k < |s| ==> IsSpace(s[k])
  }

  predicate NoLineTerminator(s: string)
  {
    forall k :: 0 <= k < |s| ==> !IsLineTerminator(s[k])
  }

  /** Lower-casing of one character: ASCII letters and the Kelvin sign (U+212A), the one
      non-ASCII character whose lower case is an ASCII letter. */
  function LowerChar(c: char): (r: char)
    ensures IsSpace(r) <==> IsSpace(c)
  {
    if 'A' <= c <= 'Z' then c - 'A' + 'a'
    else if c as int == 0x212A then 'k'
    else c
  }

  function Lower(s: string): (r: string)
    ensures |r| == |s|
    ensures forall k :: 0 <= k < |s| ==> r[k] == LowerChar(s[k])
  {
    seq(|s|, k requires 0 <= k < |s| => LowerChar(s[k]))
  }

  /** Number of whitespace characters `trim` strips from the front. */
  function LeadingSpaces(s: string): (n: nat)
    ensures n <= |s|
    ensures AllSpace(s[..n])
    ensures n < |s| ==> !IsSpace(s[n])
  {
    if |s| > 0 && IsSpace(s[0]) then 1 + LeadingSpaces(s[1..]) else 0
  }

  /** Number of whitespace characters `trim` strips from the back. */
  function TrailingSpaces(s: string): (n: nat)
    ensures n <= |s|
    ensures AllSpace(s[|s| - n..])
    ensures n < |s| ==> !IsSpace(s[|s| - n - 1])
  {
    if |s| > 0 && IsSpace(s[|s| - 1]) then 1 + TrailingSpaces(s[..|s| - 1]) else 0
  }

  /** `s` is `pre + core + post` with whitespace-only ends and a core that starts and ends
      with a non-space character (or is empty because `s` is all whitespace). */
  predicate TrimmedAt(s: string, i: int, j: int)
  {
    && 0 <= i <= j <= |s|
    && AllSpace(s[..i])
    && AllSpace(s[j..])
    && (i < j ==> !IsSpace(s[i]) && !IsSpace(s[j - 1]))
  }

  /** `String.prototype.trim`. */
  function Trim(s: string): (r: string)
    ensures exists i, j :: TrimmedAt(s, i, j) && r == s[i..j]
  {
    var a := LeadingSpaces(s);
    var t := s[a..];
    var b := |t| - TrailingSpaces(t);
    assert TrimmedAt(s, a, a + b) by {
      assert s[a + b..] == t[b..];
      if b > 0 {
        assert s[a + b - 1] == t[b - 1];
      } else {
        assert s[..a] + t == s;
        assert AllSpace(s[..a + b]);
      }
    }
    s[a..a + b]
  }

  /** Every character of an all-space prefix is a space. */
  lemma SpaceInPrefix(s: string, n: int, k: int)
    requires 0 <= k < n <= |s| && AllSpace(s[..n])
    ensures IsSpace(s[k])
  {
    assert s[..n][k] == s[k];
  }

  /** Every character of an all-space suffix is a space. */
  lemma SpaceInSuffix(s: string, n: int, k: int)
    requires 0 <= n <= k < |s| && AllSpace(s[n..])
    ensures IsSpace(s[k])
  {
    assert s[n..][k - n] == s[k];
  }

  /** The trimmed core is unique: any decomposition with a non-space core is the one `trim` finds. */
  lemma TrimUnique(s: string, i: int, j: int)
    requires TrimmedAt(s, i, j) && i < j
    ensures Trim(s) == s[i..j]
  {
    var i', j' :| TrimmedAt(s, i', j') && Trim(s) == s[i'..j'];
    assert TrimmedAt(s, i', j');
    if i < i' {
      SpaceInPrefix(s, i', i);
      assert false;
    } else if i' < i {
      if i' == j' {
        SpaceInSuffix(s, j', i);
      } else {
        SpaceInPrefix(s, i, i');
      }
      assert false;
    } else if j < j' {
      SpaceInSuffix(s, j, j' - 1);
      assert false;
    } else if j' < j {
      SpaceInSuffix(s, j', j - 1);
      assert false;
    }
  }
}
